=== FILE: README.md ===
# IronMan 2023 site: lazy loader and offline cache, in Dafny

This project models the two scripts that make up the dynamic core of the
IronMan 2023 training site.

- **The lazy section loader** (`js/lazy-loader.js`).
  - `loadSection` runs a section's population routine at most once per successful load. It shows a loading indicator and removes it on both paths. On failure it appends an error message and leaves the section unloaded, so a later call retries.
  - The table routines fill the first visualization grid of their section from a fixed table, unless that grid already has children. The body-composition routine splits its four entries across its grids.
  - Each visualization container waits for a first click. A source path containing `key_frame_comparison` opens in a new tab, once, and nothing else ever happens. Any other source is embedded as an iframe, and every later click off the title opens a modal.
  - `animateNumbers` counts every not-yet-animated element from zero to its target. A time target (`hh:mm:ss` or `mm:ss`) is counted in seconds. An integer target may carry commas and is printed with en-US grouping.
- **The service worker** (`sw.js`).
  - install stores seven fixed assets in the cache generation `ironman-2023-v1`, all or nothing.
  - fetch is cache-first over every generation. On a miss it goes to the network and copies a same-origin 200 response into the current generation when the URL contains `.html`, `.css` or `.js`.
  - activate deletes every other generation.

Modules:

- `Wrappers` (`wrappers.dfy`) holds the shared `Option` type.
- `Strings` (`strings.dfy`) holds the text operations the scripts use:
  - `includes`, and `split` with its join;
  - decimal `parseInt` and `String(n)`;
  - `padStart(2, '0')`, comma stripping, and en-US thousands grouping.
- `CountUp` (`countup.dfy`) holds the count-up animation. Progress is an exact fraction in [0, 1].
- `Visualization` (`visualization.dfy`) holds a container's click life cycle.
- `Loader` (`loader.dfy`) holds:
  - the registry of section routines and their visualization tables;
  - an abstract page (per section: indicator and error counts, grids of containers, count-up elements);
  - the routines and `loadSection`.
- `ServiceWorker` (`serviceworker.dfy`) models the cache storage as generations in creation order, each a map from request to response, with the three handlers over it.

Three behaviours of the code shape the model:

- The fetch handler looks a request up with `caches.match`, which searches every generation, not just `ironman-2023-v1`. Before activate has run, an entry in an older generation is still served. `ServiceWorker.MatchAfterActivate` states when this is the same as consulting `ironman-2023-v1` alone.
- A section load fails only when its routine throws. The routine throws when its section element is missing, or on an exception raised by the browser, which the model takes as the `fault` argument. A missing grid is not a failure: the routine returns without doing anything.
- `loadSection` looks its routine up with `this.sectionLoaders[id]` on an object literal, so it also finds the members every object inherits from `Object.prototype`. `loadSection('toString')` calls `Object.prototype.toString`, which returns normally, so `'toString'` is recorded as loaded. `loadSection('__proto__')` finds `Object.prototype` itself, whose missing `call` throws, so that id takes the error path. `Loader.Lookup` models this.

## Model

| member | source | states |
|---|---|---|
| Strings.Contains | js/lazy-loader.js:100 | `includes` is true exactly when the substring occurs at some position |
| Strings.MissingLetter | js/lazy-loader.js:100 | a string lacking any one character of the pattern does not contain it |
| Strings.Split | js/lazy-loader.js:390 | `split` yields at least one piece, no piece holds the separator, and joining the pieces gives the input back |
| Strings.Parse | js/lazy-loader.js:392 | `parseInt` of a digit string; characterised by `Strings.Show` (`String(n)` reads back as `n`) and `Strings.ParsePad2` |
| Strings.SplitJoin | js/lazy-loader.js:390 | splitting a join of separator-free pieces gives those pieces back |
| Strings.Show | js/lazy-loader.js:401 | `String(n)` is a digit string without leading zero that `parseInt` reads back as `n` |
| Strings.Pad2 | js/lazy-loader.js:401 | `padStart(2, '0')`: at least two characters, the input at the end, zeros before it |
| Strings.ParsePad2 | js/lazy-loader.js:401 | a number printed and zero-padded to two digits still reads back as that number |
| Strings.StripCommas | js/lazy-loader.js:406 | removing commas leaves no comma, keeps every other character with its multiplicity, and leaves comma-free text unchanged |
| Strings.StripCommasKeepsOrder | js/lazy-loader.js:406 | the result is as long as the non-commas of the input, and each non-comma sits at its index less the commas before it, so the order is kept |
| Strings.StripCommasAppend | js/lazy-loader.js:406 | removing commas from a concatenation is removing them from each part |
| Strings.StripGroup | js/lazy-loader.js:406-407 | stripping the commas of an en-US grouped numeral gives the numeral back |
| Strings.Group | js/lazy-loader.js:407 | `toLocaleString()` in en-US; characterised by `Strings.GroupCommas` (where the commas go) and `Strings.StripGroup` (removing them gives the numeral back) |
| Strings.GroupCommas | js/lazy-loader.js:407 | a grouped numeral has one comma per full group of three digits below the leading group, and a character is a comma exactly when it is not the first and a multiple of four characters from the end |
| Loader.Registry | js/lazy-loader.js:5-14 | an id maps to a routine exactly when that routine is registered under the id |
| Loader.RegistryFindsEveryRoutine | js/lazy-loader.js:5-14 | each of the eight routines is found under its own id and under no other |
| Loader.Lookup | js/lazy-loader.js:24-25 | the lookup finds an own routine first, otherwise an inherited `Object.prototype` member (telling whether calling it throws), and nothing exactly when the id is neither |
| Loader.OwnRoutinesShadowNothing | js/lazy-loader.js:5-14 | no section id is an inherited member name, so every id finds its own routine |
| Loader.ShowIndicator | js/lazy-loader.js:39-50 | only the named section changes, and only its indicator count; a section without an indicator gets exactly one; one already present is not duplicated |
| Loader.HideIndicator | js/lazy-loader.js:52-58 | removes exactly one indicator when there is one, otherwise nothing; other sections untouched |
| Loader.ShowError | js/lazy-loader.js:60-69 | appends exactly one error message to a present section; nothing else changes |
| Loader.TableFlagsAgree | js/lazy-loader.js:244-266 | in every table an entry is flagged large iff its path contains the large-source marker, and that holds only for the fourth swim entry |
| Loader.Populate | js/lazy-loader.js:166-374 | a routine throws exactly when its section element is missing, touches no other section, and never changes indicator or error counts |
| Loader.FinalAnimates | js/lazy-loader.js:370-380 | the final routine marks every count-up element of its section animated, starting the pending ones, and leaves its grids alone |
| Loader.IntroChangesNothing | js/lazy-loader.js:166-175 | the intro routine, given its section, changes nothing the model keeps |
| Loader.FirstGridGuard | js/lazy-loader.js:177-199 | a table routine whose first grid is missing or non-empty changes nothing; otherwise the first grid becomes the table's containers in order and every other grid and counter is unchanged (same guard at lines 242, 277, 311, 345) |
| Loader.BodySplit | js/lazy-loader.js:201-236 | unless grid 0 has children, grid 0 receives the first two body entries and every later grid the last two, appended after its children |
| Loader.PopulateIdempotent | js/lazy-loader.js:166-374 | running a routine again on the page its successful run produced changes nothing |
| Loader.LoadSection | js/lazy-loader.js:19-37 | a loaded id or one the lookup does not find is a no-op; otherwise indicator, call, [error], hide in that order; the id becomes loaded iff no error, and the error path is taken iff the call throws; a routine run without fault leaves the section's grids and counters as the routine alone would, a failed or inherited call leaves them as they were; other sections untouched |
| Loader.LoadedIsIdempotent | js/lazy-loader.js:19-29 | after a successful load, loading the same id again does nothing |
| Loader.FailureAllowsRetry | js/lazy-loader.js:27-35 | after a failed load the id is not loaded; the next call makes the same call again, and an own routine then succeeds when the section exists and nothing is raised |
| Loader.ErrorOnlyOnFailure | js/lazy-loader.js:30-33 | the error count grows by one on the failure path and stays put on the success path |
| Loader.IndicatorRemovedOnEveryPath | js/lazy-loader.js:26-35 | a load that makes its call leaves no indicator behind, on success and failure alike |
| Loader.LoadedAreRecordable | js/lazy-loader.js:24-29 | only ids the lookup finds enter the loaded set, and never one whose inherited member always throws |
| Loader.InheritedMemberIsRecorded | js/lazy-loader.js:24-29 | `toString` is found as an inherited member, called without throwing, and recorded as loaded |
| Loader.ProtoTakesErrorPath | js/lazy-loader.js:24-33 | `__proto__` is found, its call throws, the error path runs and the id stays unloaded |
| Loader.LoadingFinalAnimates | js/lazy-loader.js:19-37 | loading the present final section without a raised exception records it and marks all of its count-up elements animated |
| Loader.AtMostOnePopulationAfterSuccess | js/lazy-loader.js:19-37 | two successive calls for one id both run the routine iff the first one failed |
| Visualization.CreateContainer | js/lazy-loader.js:71-94 | a new container carries its source, has the `large-viz` class exactly when its descriptor is flagged large, and waits for its first click |
| Visualization.Click | js/lazy-loader.js:89-124 | the first click leaves the waiting phase with exactly one effect: an external open iff the source is large, else an embed; later clicks open a modal only on an embedded container and off the title; reachable states stay consistent |
| Visualization.LargeSourceOnlyOpensExternally | js/lazy-loader.js:96-106 | however often a large source is clicked, the only effect is a single external open |
| Visualization.SpentIsInert | js/lazy-loader.js:89-91 | once the one-shot listener has fired on a large source, no click has any effect |
| Visualization.EmbeddedOpensModals | js/lazy-loader.js:122-124 | an embedded container opens exactly one modal per click off the title and nothing else |
| Visualization.InlineSourceEmbedsOnce | js/lazy-loader.js:108-124 | any other source is embedded by the first click, wherever it lands, then opens one modal per later off-title click |
| Visualization.ClassDoesNotDecide | js/lazy-loader.js:71-106 | the `large-viz` class never changes what clicks do |
| Visualization.FlagWithoutMarkerEmbeds | js/lazy-loader.js:96-106 | an entry flagged large whose path lacks the marker is embedded inline |
| CountUp.ProgressAt | js/lazy-loader.js:381-386 | progress is elapsed/1500 before the duration and exactly 1 from then on |
| CountUp.AnimationStopsAtDuration | js/lazy-loader.js:410-412 | another frame is requested iff less than 1500 ms have elapsed |
| CountUp.ProgressAtMonotone | js/lazy-loader.js:384-386 | progress never decreases as time passes |
| CountUp.Scale | js/lazy-loader.js:395 | the floor of value times progress: within [0, value], 0 at progress 0, the value at progress 1 |
| CountUp.ScaleMonotone | js/lazy-loader.js:395 | larger progress never shows a smaller count |
| CountUp.TotalSecondsIsBase60 | js/lazy-loader.js:390-393 | the fold over the fields equals the base-60 value of the fields, most significant first |
| CountUp.TotalSecondsThree | js/lazy-loader.js:390-393 | three fields read as 3600·h + 60·m + s |
| CountUp.TotalSecondsTwo | js/lazy-loader.js:390-393 | two fields read as 60·m + s |
| CountUp.TotalSeconds | js/lazy-loader.js:390-393 | the `reduce` fold over the fields; characterised by `CountUp.TotalSecondsIsBase60`, `CountUp.TotalSecondsThree` and `CountUp.TotalSecondsTwo` |
| CountUp.TimeText | js/lazy-loader.js:395-404 | the time frame; characterised by `CountUp.ClockTextThree`, `CountUp.ClockTextShort` and the two read-back lemmas |
| CountUp.ClockTextThree | js/lazy-loader.js:395-401 | a three-field time whose current count is h hours, m minutes and s seconds prints the three zero-padded to two digits, colon-separated |
| CountUp.ClockTextShort | js/lazy-loader.js:395-404 | any other field count prints the minutes unpadded and the seconds zero-padded, whatever the hours |
| CountUp.IntegerText | js/lazy-loader.js:406-407 | the integer frame; characterised by `CountUp.IntegerTextReadsBack`, `CountUp.IntegerTextMonotone` and `Strings.GroupCommas` |
| CountUp.FrameText | js/lazy-loader.js:388-408 | `updateNumber`'s text: the time frame when the target contains a colon, the integer frame otherwise; characterised through `CountUp.TimeRoundTrip`, `CountUp.MinutesRoundTrip` and `CountUp.IntegerRoundTrip` |
| CountUp.TimeTextReadsBack | js/lazy-loader.js:395-401 | the `hh:mm:ss` frame splits into three numerals, minutes and seconds below 60, whose base-60 value is the current second count |
| CountUp.TimeTextShortReadsBack | js/lazy-loader.js:395-404 | any other field count prints `m:ss`, both below 60, reading back as the current second count modulo one hour |
| CountUp.IntegerTextReadsBack | js/lazy-loader.js:406-407 | the integer frame without commas is a numeral no larger than the target, equal to it at progress 1, and exactly the floor of target times progress (`Scale`) |
| CountUp.IntegerTextMonotone | js/lazy-loader.js:381-407 | the integer frame never counts down: larger progress reads back as a number at least as large |
| CountUp.TimeRoundTrip | js/lazy-loader.js:388-401 | a zero-padded `hh:mm:ss` target with minutes and seconds below 60 is printed back exactly by the last frame |
| CountUp.MinutesRoundTrip | js/lazy-loader.js:402-404 | an `m:ss` target under an hour with unpadded minutes is printed back exactly by the last frame |
| CountUp.ShortTarget | js/lazy-loader.js:402-404 | a two-field target ends showing its minutes modulo 60, unpadded, and its seconds |
| CountUp.IntegerRoundTrip | js/lazy-loader.js:405-407 | an en-US grouped integer target is printed back exactly by the last frame |
| CountUp.FullTimeExample | js/lazy-loader.js:388-401 | `01:02:03` ends as `01:02:03` |
| CountUp.GroupedIntegerExample | js/lazy-loader.js:405-407 | `1,234` ends as `1,234` |
| CountUp.HoursDroppedExample | js/lazy-loader.js:402-404 | `75:00` ends as `15:00`: whole hours of a two-field time are dropped |
| CountUp.PaddingDroppedExample | js/lazy-loader.js:402-404 | `05:30` ends as `5:30`: two-field minutes lose their padding |
| CountUp.AnimateAll | js/lazy-loader.js:377-380 | every element ends marked animated, and the animations that start are exactly those of the not-yet-animated elements, with their targets, in document order |
| CountUp.Started | js/lazy-loader.js:377-380 | the targets collected as `forEach` visits the elements are exactly the pending ones, in document order |
| CountUp.PendingCons | js/lazy-loader.js:377-380 | the targets of the not-yet-animated elements are the same collected from the front or from the back |
| CountUp.AnimateAllIdempotent | js/lazy-loader.js:377-379 | a second pass starts nothing and marks nothing new |
| ServiceWorker.Find | sw.js:16 | a generation is found exactly when its name is among the cache names |
| ServiceWorker.Open | sw.js:16 | afterwards the named generation exists with its old entries; an existing name leaves the storage as it was, and a new one is appended empty after every older generation; other generations unchanged |
| ServiceWorker.Put | sw.js:52 | the named generation maps the request to the response; every other generation and name is unchanged |
| ServiceWorker.Match | sw.js:27 | the answer is the entry of the oldest generation holding the request, and none exactly when no generation holds it |
| ServiceWorker.MatchIsFirstHolder | sw.js:27 | whichever generation first holds a request answers it, even when a later one holds it too |
| ServiceWorker.Stored | sw.js:19 | what `addAll` stores holds every listed URL's request with its network response and no request for an unlisted URL |
| ServiceWorker.PutAll | sw.js:19 | every listed URL ends mapped to its network response, other entries are kept, and nothing else is added |
| ServiceWorker.Install | sw.js:14-21 | succeeds iff every asset fetches with a response `addAll` accepts (not an error, status 200 to 299 but not 206); on success all seven are stored, other entries kept and nothing else added, on failure the current generation is as before; only `ironman-2023-v1` is written |
| ServiceWorker.HandleFetch | sw.js:25-60 | a hit answers from the cache without the network; a miss answers with the network response or fails; the storage changes only for a same-origin 200 response to a `.html`/`.css`/`.js` URL, and then only that entry of `ironman-2023-v1` |
| ServiceWorker.CachedMissIsNextHit | sw.js:37-56 | after a cached miss, the same request is served from the cache with the same response and without the network |
| ServiceWorker.PutMatch | sw.js:50-53 | storing a request no generation held makes the cache lookup return it |
| ServiceWorker.NotAdmittedNotStored | sw.js:39-41 | a non-200 or non-basic response goes to the page and is never stored |
| ServiceWorker.JsonIsCacheable | sw.js:47-49 | a `.json` URL passes the path test through its `.js` prefix |
| ServiceWorker.ImageIsNotCacheable | sw.js:47-49 | the path `/img/logo.png` passes none of the three tests |
| ServiceWorker.HostDecides | sw.js:47-49 | the tests read the whole URL: an image on a host whose name contains `.js` passes |
| ServiceWorker.Activate | sw.js:63-77 | only generations named `ironman-2023-v1` remain, its entries unchanged, at most one of them |
| ServiceWorker.ActivateIdempotent | sw.js:63-77 | activating twice deletes nothing more |
| ServiceWorker.MatchAfterActivate | sw.js:25-77 | after activate, the cache lookup consults `ironman-2023-v1` alone |
| ServiceWorker.StaleServedBeforeActivate | sw.js:25-77 | with an older generation and `ironman-2023-v1` both holding a request, the older entry is served until activate deletes that generation, and the current one afterwards |
| ServiceWorker.ActivateExample | sw.js:63-77 | an older generation and the current one: only the current one survives, with all its entries |
| ServiceWorker.InstalledAssetsServedOffline | sw.js:14-27 | after a successful install and activate, every listed asset is served from the cache without the network |

## Left out

- The DOM itself is left out: markup, CSS classes other than `large-viz` and `animated`, titles, descriptions and iframe attributes. A section is reduced to counts, grids and counters.
- The modal's construction and its close wiring (`js/lazy-loader.js:125-162`: the close button and a click on the backdrop) are abstracted to a single `OpenModal` effect.
- The intro routine's `loading = 'lazy'` tweak on images (`js/lazy-loader.js:166-175`) does not touch anything the model keeps. The routine is modelled only as its lookup, which throws when the section is missing.
- Error-message re-serialisation (`innerHTML +=`) can drop event listeners already attached inside the section. This is not modelled.
- Logging to the console is left out.
- The global singleton and its initialisation (`js/lazy-loader.js:420-424`) are not part of this model.
- Timing is left out: `performance.now()`, `requestAnimationFrame` and the clock are replaced by a given non-negative elapsed time.
- CountUp.ProgressAt: models progress as an exact rational rather than a floating-point number, so rounding of `totalSeconds * progress` near integer boundaries is not modelled; a negative elapsed time is excluded.
- CountUp.ValidTarget: a target field that `parseInt` would read as `NaN`, or read partially (leading sign, trailing garbage), is excluded; only digit-only fields are modelled.
- CountUp.IntegerText: `toLocaleString` is modelled as the en-US grouping; other locales are not modelled.
- CountUp.IntegerRoundTrip: numbers are unbounded integers, while `parseInt`, `Math.floor` and `toLocaleString` work on IEEE doubles, exact only up to 2^53. A target above that, such as `9,007,199,254,740,993`, ends as the nearest double (`9,007,199,254,740,992`) in the source; the round trip is proved only for the exact arithmetic.
- CountUp.TotalSecondsIsBase60: `parseInt` and `Math.pow` work on doubles; this, `CountUp.TimeTextReadsBack` and `CountUp.TimeTextShortReadsBack` hold in the source only while every field and the total stay below 2^53.
- CountUp.IntegerTextReadsBack: same limit as `CountUp.IntegerRoundTrip`; it holds in the source only while target and frames stay below 2^53.
- Strings.Show: `String(n)` is modelled for exact integers; the exponent notation doubles switch to from 10^21 is not modelled.
- CountUp.AnimateAll: each started element's frames are modelled separately by `FrameText`; the interleaving of their animation frames is not modelled.
- Concurrency is not modelled: interleaved `loadSection` calls for one id while the first is still awaiting, and service-worker events racing each other.
- ServiceWorker.HandleFetch: the `cache.put` on a miss is not awaited in the source; the model applies it before the next event.
- `Object.prototype` is taken as the standard one; a script that adds properties to it would add ids the lookup finds, which is not modelled. The browser `fault` is not applied to inherited members.
- `cache.addAll` also refuses a response carrying `Vary: *`; headers are not modelled.
- Same-origin requests are modelled by their paths, so the host never reaches the path test for a cacheable `basic` response; in the source the test reads the absolute URL, and a site whose own host name contains `.js` would cache every same-origin 200 response.
- Cache key matching is not modelled: URL normalisation, the request method, `Vary` headers and query handling. Requests are compared as values.
- Response bodies are abstract. A response's body being consumed by one reader, which the source's `clone()` calls avoid, is not modelled.
- ServiceWorker.Install: `cache.addAll` is modelled as storing every response when all are ok and nothing otherwise. The order of its internal fetches, and its rejection of duplicate requests, are not modelled.
- A network request that rejects is modelled as the request missing from the network map. The browser's error page that follows is not modelled.

=== FILE: countup.dfy ===
/** The count-up animation of `LazyLoader.animateNumbers`: every element of a
    section flagged for animation and not yet animated is marked animated and
    then redrawn frame by frame from zero to its target. A target holding a
    colon is a time (`mm:ss`, `hh:mm:ss`, ...); any other target is an integer
    that may carry thousands separators.

    Progress is the exact fraction `num/den` with `0 <= num <= den`, in place
    of the floating-point `Math.min(elapsed / duration, 1)`. */
module CountUp {
  import opened Strings

  /* ---------------------------------------------------------------------- */
  /* Progress                                                               */
  /* ---------------------------------------------------------------------- */

  datatype Fraction = Fraction(num: nat, den: nat)

  /** A fraction in the closed interval [0, 1]. */
  type Progress = p: Fraction | 0 < p.den && p.num <= p.den witness Fraction(0, 1)

  /** Length of the animation in milliseconds. */
  const Duration: nat := 1500

  /** Progress 1: the terminal frame. */
  const Complete: Progress := Fraction(1, 1)

  /** `p <= q` as rationals. */
  predicate AtMost(p: Progress, q: Progress) {
    p.num * q.den <= q.num * p.den
  }

  /** `Math.min(elapsed / duration, 1)` for a non-negative elapsed time. */
  function ProgressAt(elapsed: nat): (p: Progress)
    ensures elapsed < Duration ==> p.num * Duration == elapsed * p.den
    ensures elapsed >= Duration <==> p.num == p.den
  {
    if elapsed >= Duration then Complete else Fraction(elapsed, Duration)
  }

  /** Another frame is requested exactly while progress is below 1. */
  predicate RequestsAnotherFrame(p: Progress) {
    p.num < p.den
  }

  /** Frames keep coming until the full duration has elapsed, then stop. */
  lemma AnimationStopsAtDuration(elapsed: nat)
    ensures RequestsAnotherFrame(ProgressAt(elapsed)) <==> elapsed < Duration
  {
  }

  /** Elapsed time only moves progress forward. */
  lemma {:induction false} ProgressAtMonotone(e1: nat, e2: nat)
    requires e1 <= e2
    ensures AtMost(ProgressAt(e1), ProgressAt(e2))
  {
    var p, q := ProgressAt(e1), ProgressAt(e2);
    if e2 < Duration {
      assert p.num * q.den == e1 * Duration <= e2 * Duration == q.num * p.den;
    } else if e1 < Duration {
      assert p.num * q.den == e1 < Duration == q.num * p.den;
    }
  }

  /** `Math.floor(n * progress)`. */
  function Scale(n: nat, p: Progress): (r: nat)
    ensures r <= n
    ensures r * p.den <= n * p.num < (r + 1) * p.den
    ensures p.num == p.den ==> r == n
    ensures p.num == 0 ==> r == 0
  {
    var r := n * p.num / p.den;
    FloorFacts(n, p.num, p.den, r);
    r
  }

  /** The floor of `n * a / d` for `0 <= a <= d` lies in `[0, n]`, hitting
      both ends. */
  lemma FloorFacts(n: nat, a: nat, d: nat, r: int)
    requires 0 < d && a <= d && r == n * a / d
    ensures 0 <= r <= n
    ensures r * d <= n * a < (r + 1) * d
    ensures a == d ==> r == n
    ensures a == 0 ==> r == 0
  {
    var x := n * a;
    MulLeftMonotone(n, a, d);
    DivBelow(x, n, d);
    if a == d {
      DivExact(n, d);
    }
  }

  lemma DivExact(n: nat, d: nat)
    requires 0 < d
    ensures n * d / d == n
  {
    var x := n * d;
    DivBelow(x, n, d);
    MulCancelStrict(n, x / d + 1, d);
  }

  lemma MulLeftMonotone(n: nat, a: nat, b: nat)
    requires a <= b
    ensures n * a <= n * b
  {
  }

  lemma DivBelow(x: nat, n: nat, d: nat)
    requires 0 < d && x <= n * d
    ensures x / d <= n
    ensures x / d * d <= x < (x / d + 1) * d
  {
  }

  /** The displayed count never runs backwards as progress grows. */
  lemma ScaleMonotone(n: nat, p: Progress, q: Progress)
    requires AtMost(p, q)
    ensures Scale(n, p) <= Scale(n, q)
  {
    FloorMonotone(Scale(n, p), Scale(n, q), n, p.num, p.den, q.num, q.den);
  }

  /** `a <= n*pn/pd` and `n*qn/qd < b + 1` with `pn/pd <= qn/qd` give `a <= b`. */
  lemma FloorMonotone(a: nat, b: nat, n: nat, pn: nat, pd: nat, qn: nat, qd: nat)
    requires 0 < pd && 0 < qd
    requires a * pd <= n * pn
    requires n * qn < (b + 1) * qd
    requires pn * qd <= qn * pd
    ensures a <= b
  {
    var k := pd * qd;
    MulRightMonotone(a * pd, n * pn, qd);
    MulLeftMonotone(n, pn * qd, qn * pd);
    MulRightStrict(n * qn, (b + 1) * qd, pd);
    assert a * pd * qd <= n * pn * qd;
    assert n * (pn * qd) <= n * (qn * pd);
    assert n * qn * pd < (b + 1) * qd * pd;
    assert a * k < (b + 1) * k;
    MulCancelStrict(a, b + 1, k);
  }

  lemma MulCancelStrict(a: nat, b: nat, k: nat)
    requires a * k < b * k
    ensures a < b
  {
    if a >= b {
      MulRightMonotone(b, a, k);
    }
  }

  lemma MulRightMonotone(a: nat, b: nat, n: nat)
    requires a <= b
    ensures a * n <= b * n
  {
  }

  lemma MulRightStrict(a: nat, b: nat, n: nat)
    requires a < b && 0 < n
    ensures a * n < b * n
  {
  }

  /* ---------------------------------------------------------------------- */
  /* Time targets                                                           */
  /* ---------------------------------------------------------------------- */

  function Pow(b: nat, e: nat): nat {
    if e == 0 then 1 else b * Pow(b, e - 1)
  }

  /** Every field of a time target is a decimal numeral. */
  predicate NumeralFields(parts: seq<string>) {
    forall i :: 0 <= i < |parts| ==> IsNumeral(parts[i])
  }

  /** The `parts.reduce` of the source from index `idx` on, with accumulator
      `acc`: field `idx` weighs `60^(|parts| - idx - 1)`. */
  function ReduceSeconds(parts: seq<string>, idx: nat, acc: nat): nat
    requires NumeralFields(parts) && idx <= |parts|
    decreases |parts| - idx
  {
    if idx == |parts| then acc
    else ReduceSeconds(parts, idx + 1, acc + Parse(parts[idx]) * Pow(60, |parts| - idx - 1))
  }

  /** Total seconds of a time target as the source computes them. */
  function TotalSeconds(parts: seq<string>): nat
    requires NumeralFields(parts)
  {
    ReduceSeconds(parts, 0, 0)
  }

  /** Reference definition: the base-60 value of the fields, most significant
      first, by Horner's rule. */
  function Base60(parts: seq<string>): nat
    requires NumeralFields(parts)
  {
    if |parts| == 0 then 0
    else 60 * Base60(parts[..|parts| - 1]) + Parse(parts[|parts| - 1])
  }

  /** Sum of `field * 60^weight` with weights counted from the right. */
  function Positional(parts: seq<string>): nat
    requires NumeralFields(parts)
  {
    if |parts| == 0 then 0
    else Parse(parts[0]) * Pow(60, |parts| - 1) + Positional(parts[1..])
  }

  lemma {:induction false} ReduceIsPositional(parts: seq<string>, idx: nat, acc: nat)
    requires NumeralFields(parts) && idx <= |parts|
    ensures ReduceSeconds(parts, idx, acc) == acc + Positional(parts[idx..])
    decreases |parts| - idx
  {
    if idx < |parts| {
      ReduceIsPositional(parts, idx + 1, acc + Parse(parts[idx]) * Pow(60, |parts| - idx - 1));
      assert parts[idx..][1..] == parts[idx + 1..];
    }
  }

  lemma {:induction false} PositionalSnoc(parts: seq<string>, last: string)
    requires NumeralFields(parts) && IsNumeral(last)
    ensures NumeralFields(parts + [last])
    ensures Positional(parts + [last]) == 60 * Positional(parts) + Parse(last)
  {
    var all := parts + [last];
    assert NumeralFields(all) by {
      forall i | 0 <= i < |all| ensures IsNumeral(all[i]) {
        if i < |parts| { assert all[i] == parts[i]; }
      }
    }
    if |parts| > 0 {
      assert all[1..] == parts[1..] + [last];
      PositionalSnoc(parts[1..], last);
      var a, w := Parse(parts[0]), Pow(60, |parts| - 1);
      assert Pow(60, |parts|) == 60 * w;
      ScaleTerm(a, w);
      assert Positional(all) == a * Pow(60, |parts|) + Positional(parts[1..] + [last]);
      assert Positional(parts) == a * w + Positional(parts[1..]);
    } else {
      assert all[1..] == [];
    }
  }

  lemma ScaleTerm(a: nat, w: nat)
    ensures a * (60 * w) == 60 * (a * w)
  {
  }

  lemma {:induction false} PositionalIsBase60(parts: seq<string>)
    requires NumeralFields(parts)
    ensures Positional(parts) == Base60(parts)
  {
    if |parts| > 0 {
      var init := parts[..|parts| - 1];
      PositionalIsBase60(init);
      PositionalSnoc(init, parts[|parts| - 1]);
      assert init + [parts[|parts| - 1]] == parts;
    }
  }

  /** The source's fold computes the base-60 value of the fields, most
      significant first. */
  lemma TotalSecondsIsBase60(parts: seq<string>)
    requires NumeralFields(parts)
    ensures TotalSeconds(parts) == Base60(parts)
  {
    ReduceIsPositional(parts, 0, 0);
    assert parts[0..] == parts;
    PositionalIsBase60(parts);
  }

  /** Three fields read as hours, minutes and seconds. */
  lemma TotalSecondsThree(parts: seq<string>)
    requires NumeralFields(parts) && |parts| == 3
    ensures TotalSeconds(parts) == 3600 * Parse(parts[0]) + 60 * Parse(parts[1]) + Parse(parts[2])
  {
    TotalSecondsIsBase60(parts);
    var two, one := parts[..2], parts[..1];
    assert two[..1] == one && one[..0] == [];
    assert Base60(one) == Parse(parts[0]);
    assert Base60(two) == 60 * Parse(parts[0]) + Parse(parts[1]);
  }

  /** Two fields read as minutes and seconds. */
  lemma TotalSecondsTwo(parts: seq<string>)
    requires NumeralFields(parts) && |parts| == 2
    ensures TotalSeconds(parts) == 60 * Parse(parts[0]) + Parse(parts[1])
  {
    TotalSecondsIsBase60(parts);
    var one := parts[..1];
    assert one[..0] == [];
    assert Base60(one) == Parse(parts[0]);
  }

  /** Hours, minutes and seconds are recovered from a second count by divmod. */
  lemma DivModClock(h: nat, m: nat, s: nat)
    requires m < 60 && s < 60
    ensures (3600 * h + 60 * m + s) / 3600 == h
    ensures (3600 * h + 60 * m + s) % 3600 / 60 == m
    ensures (3600 * h + 60 * m + s) % 60 == s
  {
  }

  /** The text shown for a time target at progress `p`: the current second
      count split by divmod into hours, minutes and seconds. */
  function TimeText(parts: seq<string>, p: Progress): string
    requires NumeralFields(parts)
  {
    var current := Scale(TotalSeconds(parts), p);
    var hours := current / 3600;
    var minutes := current % 3600 / 60;
    var seconds := current % 60;
    if |parts| == 3 then
      Join([Pad2(Show(hours)), Pad2(Show(minutes)), Pad2(Show(seconds))], ':')
    else
      Join([Show(minutes), Pad2(Show(seconds))], ':')
  }

  /** Read as a time, the `hh:mm:ss` text is the current second count, with
      minutes and seconds below 60. */
  lemma TimeTextReadsBack(parts: seq<string>, p: Progress)
    requires NumeralFields(parts) && |parts| == 3
    ensures var out := Split(TimeText(parts, p), ':');
      && |out| == 3 && NumeralFields(out)
      && Parse(out[1]) < 60 && Parse(out[2]) < 60
      && Base60(out) == Scale(TotalSeconds(parts), p)
  {
    var current := Scale(TotalSeconds(parts), p);
    var h, m, s := current / 3600, current % 3600 / 60, current % 60;
    var fields := [Pad2(Show(h)), Pad2(Show(m)), Pad2(Show(s))];
    ClockParts(current);
    ParsePad2(h);
    ParsePad2(m);
    ParsePad2(s);
    assert TimeText(parts, p) == Join(fields, ':');
    SplitJoin(fields, ':');
    TotalSecondsThree(fields);
    TotalSecondsIsBase60(fields);
  }

  /** With any field count other than three the text is `minutes:ss`, and it
      reads back as the current second count with whole hours dropped. */
  lemma TimeTextShortReadsBack(parts: seq<string>, p: Progress)
    requires NumeralFields(parts) && |parts| != 3
    ensures var out := Split(TimeText(parts, p), ':');
      && |out| == 2 && NumeralFields(out)
      && Parse(out[0]) < 60 && Parse(out[1]) < 60
      && Base60(out) == Scale(TotalSeconds(parts), p) % 3600
  {
    var current := Scale(TotalSeconds(parts), p);
    var m, s := current % 3600 / 60, current % 60;
    var fields := [Show(m), Pad2(Show(s))];
    ClockParts(current);
    ParsePad2(s);
    assert TimeText(parts, p) == Join(fields, ':');
    SplitJoin(fields, ':');
    TotalSecondsTwo(fields);
    TotalSecondsIsBase60(fields);
  }

  /** Hours, minutes below 60 and seconds below 60 recompose a second count. */
  lemma ClockParts(c: nat)
    ensures c % 3600 / 60 < 60 && c % 60 < 60
    ensures 60 * (c % 3600 / 60) + c % 60 == c % 3600
    ensures 3600 * (c / 3600) + 60 * (c % 3600 / 60) + c % 60 == c
  {
    var q, r := c / 3600, c % 3600;
    var m, s := r / 60, r % 60;
    assert r == 60 * m + s;
    assert c == 60 * (60 * q + m) + s;
    ModSixty(c, 60 * q + m, s);
  }

  lemma ModSixty(c: nat, a: nat, s: nat)
    requires s < 60 && c == 60 * a + s
    ensures c % 60 == s
  {
  }

  /* ---------------------------------------------------------------------- */
  /* Integer targets                                                        */
  /* ---------------------------------------------------------------------- */

  /** The integer a target names once its thousands separators are removed. */
  function IntegerValue(target: string): nat
    requires IsNumeral(StripCommas(target))
  {
    Parse(StripCommas(target))
  }

  /** The text shown for an integer target at progress `p`, grouped the
      en-US way. */
  function IntegerText(target: string, p: Progress): string
    requires IsNumeral(StripCommas(target))
  {
    Group(Show(Scale(IntegerValue(target), p)))
  }

  /** The integer text, read back without its separators, is the scaled
      target: never negative, never above the target, and the target itself
      at progress 1. */
  lemma IntegerTextReadsBack(target: string, p: Progress)
    requires IsNumeral(StripCommas(target))
    ensures var out := StripCommas(IntegerText(target, p));
      && IsNumeral(out)
      && Parse(out) <= IntegerValue(target)
      && (p.num == p.den ==> Parse(out) == IntegerValue(target))
      && Parse(out) * p.den <= IntegerValue(target) * p.num < (Parse(out) + 1) * p.den
      && Parse(out) == Scale(IntegerValue(target), p)
  {
    StripGroup(Show(Scale(IntegerValue(target), p)));
  }

  /** The integer text never counts down: at larger progress it reads back
      as a number at least as large. */
  lemma IntegerTextMonotone(target: string, p: Progress, q: Progress)
    requires IsNumeral(StripCommas(target)) && AtMost(p, q)
    ensures var early, late := StripCommas(IntegerText(target, p)), StripCommas(IntegerText(target, q));
      IsNumeral(early) && IsNumeral(late) && Parse(early) <= Parse(late)
  {
    IntegerTextReadsBack(target, p);
    IntegerTextReadsBack(target, q);
    ScaleMonotone(IntegerValue(target), p, q);
  }

  /* ---------------------------------------------------------------------- */
  /* A frame of one animated element                                        */
  /* ---------------------------------------------------------------------- */

  /** Targets the model accepts: each colon-separated field a numeral, or,
      without a colon, a numeral once commas are removed. */
  predicate ValidTarget(target: string) {
    if ':' in target then NumeralFields(Split(target, ':'))
    else IsNumeral(StripCommas(target))
  }

  /** `updateNumber`'s text: the format is chosen by the presence of a colon. */
  function FrameText(target: string, p: Progress): string
    requires ValidTarget(target)
  {
    if ':' in target then TimeText(Split(target, ':'), p)
    else IntegerText(target, p)
  }

  lemma JoinTwo(a: string, b: string, sep: char)
    ensures Join([a, b], sep) == a + [sep] + b
  {
    assert [a, b][1..] == [b];
  }

  lemma JoinThree(a: string, b: string, c: string, sep: char)
    ensures Join([a, b, c], sep) == a + [sep] + b + [sep] + c
  {
    assert [a, b, c][1..] == [b, c];
    JoinTwo(b, c, sep);
  }

  lemma ModBelow(x: nat, d: nat)
    requires x < d
    ensures x % d == x
  {
  }

  /** A colon-joined target splits back into the fields it was joined from. */
  lemma SplitTarget(parts: seq<string>)
    requires |parts| >= 2 && NumeralFields(parts)
    ensures ':' in Join(parts, ':')
    ensures Split(Join(parts, ':'), ':') == parts
  {
    forall i | 0 <= i < |parts| ensures ':' !in parts[i] {
      NumeralHasNoColon(parts[i]);
    }
    SplitJoin(parts, ':');
    var t := Join(parts, ':');
    assert t == parts[0] + [':'] + Join(parts[1..], ':');
    assert t[|parts[0]|] == ':';
  }

  /** A three-field time whose current count is `h` hours, `m` minutes and
      `s` seconds prints those three, each padded to two digits. */
  lemma ClockTextThree(parts: seq<string>, p: Progress, h: nat, m: nat, s: nat)
    requires NumeralFields(parts) && |parts| == 3 && m < 60 && s < 60
    requires Scale(TotalSeconds(parts), p) == 3600 * h + 60 * m + s
    ensures TimeText(parts, p) == Join([Pad2(Show(h)), Pad2(Show(m)), Pad2(Show(s))], ':')
  {
    var current := Scale(TotalSeconds(parts), p);
    DivModClock(h, m, s);
    assert current / 3600 == h && current % 3600 / 60 == m && current % 60 == s;
  }

  /** A time of any other field count whose current count is `h` hours, `m`
      minutes and `s` seconds prints only the minutes and padded seconds. */
  lemma ClockTextShort(parts: seq<string>, p: Progress, h: nat, m: nat, s: nat)
    requires NumeralFields(parts) && |parts| != 3 && m < 60 && s < 60
    requires Scale(TotalSeconds(parts), p) == 3600 * h + 60 * m + s
    ensures TimeText(parts, p) == Join([Show(m), Pad2(Show(s))], ':')
  {
    DivModClock(h, m, s);
  }

  /** At progress 1 a three-field time with minutes and seconds below 60
      prints each two-digit field back unchanged. */
  lemma TimeTextCompleteThree(hh: string, mm: string, ss: string)
    requires IsNumeral(hh) && IsNumeral(mm) && IsNumeral(ss)
    requires |hh| == 2 && |mm| == 2 && |ss| == 2
    requires Parse(mm) < 60 && Parse(ss) < 60
    ensures NumeralFields([hh, mm, ss])
    ensures TimeText([hh, mm, ss], Complete) == Join([hh, mm, ss], ':')
  {
    var parts := [hh, mm, ss];
    TotalSecondsThree(parts);
    ClockTextThree(parts, Complete, Parse(hh), Parse(mm), Parse(ss));
    ShowPad2TwoDigits(hh);
    ShowPad2TwoDigits(mm);
    ShowPad2TwoDigits(ss);
  }

  /** A zero-padded `hh:mm:ss` target with minutes and seconds below 60 is
      reproduced exactly by the terminal frame. */
  lemma TimeRoundTrip(hh: string, mm: string, ss: string)
    requires IsNumeral(hh) && IsNumeral(mm) && IsNumeral(ss)
    requires |hh| == 2 && |mm| == 2 && |ss| == 2
    requires Parse(mm) < 60 && Parse(ss) < 60
    ensures ValidTarget(hh + ":" + mm + ":" + ss)
    ensures FrameText(hh + ":" + mm + ":" + ss, Complete) == hh + ":" + mm + ":" + ss
  {
    var parts := [hh, mm, ss];
    TimeTextCompleteThree(hh, mm, ss);
    SplitTarget(parts);
    JoinThree(hh, mm, ss, ':');
  }

  lemma NumeralHasNoColon(d: string)
    requires IsNumeral(d)
    ensures ':' !in d
  {
    forall i | 0 <= i < |d| ensures d[i] != ':' {
      assert IsDigit(d[i]);
    }
  }

  /** A `m:ss` target under an hour, minutes written without a leading zero,
      is reproduced exactly by the terminal frame. */
  lemma MinutesRoundTrip(minutes: nat, ss: string)
    requires minutes < 60
    requires IsNumeral(ss) && |ss| == 2 && Parse(ss) < 60
    ensures ValidTarget(Show(minutes) + ":" + ss)
    ensures FrameText(Show(minutes) + ":" + ss, Complete) == Show(minutes) + ":" + ss
  {
    var ms := Show(minutes);
    ShortTarget(ms, ss);
    assert Parse(ms) == minutes;
    ModBelow(minutes, 60);
  }

  /** At progress 1 a two-field time prints its minutes modulo 60, without
      padding, and its two-digit seconds unchanged. */
  lemma TimeTextCompleteTwo(mm: string, ss: string)
    requires IsNumeral(mm) && IsNumeral(ss) && |ss| == 2 && Parse(ss) < 60
    ensures NumeralFields([mm, ss])
    ensures TimeText([mm, ss], Complete) == Join([Show(Parse(mm) % 60), ss], ':')
  {
    var parts := [mm, ss];
    var m, s := Parse(mm), Parse(ss);
    TotalSecondsTwo(parts);
    assert 60 * m + s == 3600 * (m / 60) + 60 * (m % 60) + s;
    ClockTextShort(parts, Complete, m / 60, m % 60, s);
    ShowPad2TwoDigits(ss);
  }

  /** A two-field target shows its minutes modulo 60, unpadded, at the end. */
  lemma ShortTarget(mm: string, ss: string)
    requires IsNumeral(mm) && IsNumeral(ss) && |ss| == 2 && Parse(ss) < 60
    ensures ValidTarget(mm + ":" + ss)
    ensures FrameText(mm + ":" + ss, Complete) == Show(Parse(mm) % 60) + ":" + ss
  {
    TimeTextCompleteTwo(mm, ss);
    SplitTarget([mm, ss]);
    JoinTwo(mm, ss, ':');
    JoinTwo(Show(Parse(mm) % 60), ss, ':');
  }

  /** An integer target written the en-US way is reproduced exactly by the
      terminal frame. */
  lemma IntegerRoundTrip(n: nat)
    ensures ValidTarget(Group(Show(n)))
    ensures FrameText(Group(Show(n)), Complete) == Group(Show(n))
  {
    StripGroup(Show(n));
    GroupNoColon(Show(n));
  }

  lemma {:induction false} GroupNoColon(d: string)
    requires ':' !in d
    ensures ':' !in Group(d)
  {
    if |d| > 3 {
      GroupNoColon(d[..|d| - 3]);
      var lo := d[|d| - 3..];
      assert ':' !in lo by {
        forall i | 0 <= i < |lo| ensures lo[i] != ':' {
          assert lo[i] == d[|d| - 3 + i];
        }
      }
    }
  }

  /** Concrete targets: a full time comes back unchanged. */
  lemma FullTimeExample(t: string)
    requires t == "01:02:03"
    ensures ValidTarget(t) && FrameText(t, Complete) == t
  {
    var hh, mm, ss := "01", "02", "03";
    assert IsNumeral(hh) && IsNumeral(mm) && IsNumeral(ss) && Parse(mm) < 60 && Parse(ss) < 60 by {
      TwoDigitShow(hh, 0, 1);
      TwoDigitShow(mm, 0, 2);
      TwoDigitShow(ss, 0, 3);
    }
    assert t == hh + ":" + mm + ":" + ss;
    TimeRoundTrip(hh, mm, ss);
  }

  /** A grouped integer comes back unchanged. */
  lemma GroupedIntegerExample(t: string)
    requires t == "1,234"
    ensures ValidTarget(t) && FrameText(t, Complete) == t
  {
    assert Show(1234) == "1234";
    assert Group("1234") == "1,234";
    IntegerRoundTrip(1234);
  }

  /** A `mm:ss` target of an hour or more loses its whole hours. */
  lemma HoursDroppedExample(t: string)
    requires t == "75:00"
    ensures ValidTarget(t) && FrameText(t, Complete) == "15:00"
  {
    var mm, ss := "75", "00";
    assert IsNumeral(mm) && IsNumeral(ss) && |ss| == 2 && Parse(ss) < 60 && Parse(mm) == 75 by {
      TwoDigitShow(mm, 7, 5);
      TwoDigitShow(ss, 0, 0);
    }
    assert Show(Parse(mm) % 60) == "15" by {
      var tens, units := 1, 5;
      assert Parse(mm) % 60 == 10 * tens + units;
      ShowTwoDigits(tens, units);
    }
    assert t == mm + ":" + ss;
    ShortTarget(mm, ss);
  }

  /** A zero-padded minute field loses its padding. */
  lemma PaddingDroppedExample(t: string)
    requires t == "05:30"
    ensures ValidTarget(t) && FrameText(t, Complete) == "5:30"
  {
    var mm, ss := "05", "30";
    assert IsNumeral(mm) && IsNumeral(ss) && |ss| == 2 && Parse(ss) < 60 && Parse(mm) == 5 by {
      TwoDigitShow(mm, 0, 5);
      TwoDigitShow(ss, 3, 0);
    }
    assert Show(Parse(mm) % 60) == "5" by {
      var units := 5;
      assert Parse(mm) % 60 == units;
      ShowOneDigit(units);
    }
    assert t == mm + ":" + ss;
    ShortTarget(mm, ss);
  }

  /** A two-digit string of the given digits reads as their value. */
  lemma TwoDigitShow(d: string, hi: nat, lo: nat)
    requires hi < 10 && lo < 10 && d == [DigitChar(hi), DigitChar(lo)]
    ensures IsNumeral(d) && Parse(d) == 10 * hi + lo
  {
    assert d[..1] == [DigitChar(hi)];
  }

  /* ---------------------------------------------------------------------- */
  /* Starting animations                                                    */
  /* ---------------------------------------------------------------------- */

  /** An element flagged for count-up, with its target and whether it carries
      the `animated` class. */
  datatype Counter = Counter(target: string, animated: bool)

  /** The targets of the counters not yet animated, in document order,
      collected from the last counter backwards. */
  function Pending(counters: seq<Counter>): (p: seq<string>)
    ensures |p| <= |counters|
    ensures (forall i :: 0 <= i < |counters| ==> counters[i].animated) <==> p == []
  {
    if |counters| == 0 then []
    else
      var last := counters[|counters| - 1];
      Pending(counters[..|counters| - 1]) + (if last.animated then [] else [last.target])
  }

  /** Collecting the pending targets from the front gives the same list. */
  lemma {:induction false} PendingCons(counters: seq<Counter>)
    requires |counters| > 0
    ensures Pending(counters)
      == (if counters[0].animated then [] else [counters[0].target]) + Pending(counters[1..])
    decreases |counters|
  {
    var n := |counters|;
    if n > 1 {
      var init := counters[..n - 1];
      PendingCons(init);
      assert init[0] == counters[0];
      assert init[1..] == counters[1..][..n - 2];
    } else {
      assert counters[1..] == [];
    }
  }

  /** The targets whose animation starts, collected from the front as the
      `forEach` visits the elements. */
  function Started(counters: seq<Counter>): (t: seq<string>)
    ensures t == Pending(counters)
  {
    if |counters| == 0 then []
    else
      PendingCons(counters);
      (if counters[0].animated then [] else [counters[0].target]) + Started(counters[1..])
  }

  /** Marks every counter animated and returns, in document order, the
      targets of those whose animation starts now: exactly the pending ones. */
  function AnimateAll(counters: seq<Counter>): (r: (seq<Counter>, seq<string>))
    ensures |r.0| == |counters|
    ensures forall i :: 0 <= i < |counters| ==> r.0[i] == counters[i].(animated := true)
    ensures r.1 == Pending(counters)
  {
    (seq(|counters|, i requires 0 <= i < |counters| => counters[i].(animated := true)), Started(counters))
  }

  /** Animating twice starts nothing the second time. */
  lemma AnimateAllIdempotent(counters: seq<Counter>)
    ensures AnimateAll(AnimateAll(counters).0).1 == []
    ensures AnimateAll(AnimateAll(counters).0).0 == AnimateAll(counters).0
  {
  }
}

=== FILE: loader.dfy ===
/** The section loader (`LazyLoader`): a registry of eight population
    routines keyed by section id, the set of ids loaded so far, and the
    page those routines write into.

    `loadSection(id)` does nothing for an id already loaded or without a
    routine. Otherwise it shows a loading indicator in the section, runs the
    routine, and then: on success records the id as loaded; on failure
    appends an error message and leaves the id out, so a later call runs the
    routine again. The indicator is removed on both paths.

    The page is abstract: each section element, when present, is reduced to
    its count of loading indicators and of error messages, its visualization
    grids in document order (each a sequence of containers), and its
    count-up elements. */
module Loader {
  import opened Wrappers
  import opened Strings
  import opened Visualization
  import opened CountUp

  /* ---------------------------------------------------------------------- */
  /* Sections and their registry                                            */
  /* ---------------------------------------------------------------------- */

  /** The sections that have a population routine. */
  datatype SectionKind = Intro | Genetic | Body | Swim | Bike | Run | Diet | Final

  /** The id under which each routine is registered, which is also the id of
      its section element. */
  function SectionId(k: SectionKind): string {
    match k
    case Intro => "intro"
    case Genetic => "genetic_analysis"
    case Body => "body_composition"
    case Swim => "swim"
    case Bike => "bike"
    case Run => "run"
    case Diet => "diet_sleep"
    case Final => "final_thoughts"
  }

  /** The own properties of `this.sectionLoaders`: the routine registered
      under an id, if any. */
  function Registry(id: string): (r: Option<SectionKind>)
    ensures r.Some? ==> SectionId(r.value) == id
    ensures r.None? ==> forall k: SectionKind :: SectionId(k) != id
  {
    if id == "intro" then Some(Intro)
    else if id == "genetic_analysis" then Some(Genetic)
    else if id == "body_composition" then Some(Body)
    else if id == "swim" then Some(Swim)
    else if id == "bike" then Some(Bike)
    else if id == "run" then Some(Run)
    else if id == "diet_sleep" then Some(Diet)
    else if id == "final_thoughts" then Some(Final)
    else None
  }

  /** Every routine is found under its own id, and under no other. */
  lemma RegistryFindsEveryRoutine(k: SectionKind, id: string)
    ensures Registry(SectionId(k)) == Some(k)
    ensures Registry(id) == Some(k) <==> id == SectionId(k)
  {
  }

  /** The members every object literal inherits from `Object.prototype`
      (section 20.1.3 and Annex B.2.2 of ECMAScript 2023). A property lookup
      on `this.sectionLoaders` finds them too. */
  const ObjectMembers: set<string> := {
    "constructor", "hasOwnProperty", "isPrototypeOf", "propertyIsEnumerable",
    "toLocaleString", "toString", "valueOf",
    "__defineGetter__", "__defineSetter__", "__lookupGetter__", "__lookupSetter__",
    "__proto__"}

  /** The inherited members for which `loader.call(this)` throws: the two
      definers reject their missing accessor argument, and `__proto__` yields
      `Object.prototype`, which has no `call` method. The others return a
      value without throwing. */
  const ThrowingMembers: set<string> := {"__defineGetter__", "__defineSetter__", "__proto__"}

  /** What `this.sectionLoaders[id]` finds: one of the eight routines, or an
      inherited member together with whether calling it throws. */
  datatype Entry = Own(kind: SectionKind) | Inherited(name: string, throws: bool)

  /** The lookup `loadSection` performs: own routines first, then the
      inherited members, otherwise nothing (a falsy `undefined`). */
  function Lookup(id: string): (r: Option<Entry>)
    ensures Registry(id).Some? ==> r == Some(Own(Registry(id).value))
    ensures r.None? <==> Registry(id).None? && id !in ObjectMembers
    ensures r.Some? && r.value.Inherited? ==>
      && Registry(id).None? && id in ObjectMembers && r.value.name == id
      && (r.value.throws <==> id in ThrowingMembers)
  {
    match Registry(id)
    case Some(k) => Some(Own(k))
    case None =>
      if id in ObjectMembers then Some(Inherited(id, id in ThrowingMembers)) else None
  }

  /** None of the section ids collides with an inherited member, so every
      routine is found as itself. */
  lemma OwnRoutinesShadowNothing(k: SectionKind)
    ensures Lookup(SectionId(k)) == Some(Own(k))
    ensures SectionId(k) !in ObjectMembers
  {
  }

  /* ---------------------------------------------------------------------- */
  /* Static visualization tables                                            */
  /* ---------------------------------------------------------------------- */

  /** The directory every visualization source lives under. Paths are
      written as directory, section folder and file name (long file names
      split before their timestamp). */
  const Root: string := "assets/visualizations/"

  const GeneticVizs: seq<Viz> := [
    Viz(Root + "genetic_analysis/" + "genetic_performance_report.html", false),
    Viz(Root + "genetic_analysis/" + "athletic_genetics_overview" + "_20241024_132540.html", false)
  ]

  const BodyVizs: seq<Viz> := [
    Viz(Root + "body_composition/" + "body_fat_percentage_over_time" + "_20241024_134949.html", false),
    Viz(Root + "body_composition/" + "body_mass_over_time" + "_20241024_134949.html", false),
    Viz(Root + "body_composition/" + "heart_rate_vs_activity_type" + "_20241024_135605.html", false),
    Viz(Root + "body_composition/" + "vo2_max_trend" + "_20241024_141609.html", false)
  ]

  const SwimVizs: seq<Viz> := [
    Viz(Root + "swim/" + "metrics_comparison.html", false),
    Viz(Root + "swim/" + "body_angle_analysis.html", false),
    Viz(Root + "swim/" + "avg_dps_swolf_over_time.html", false),
    Viz(Root + "swim/" + "key_frame_comparison_1.html", true)
  ]

  const BikeVizs: seq<Viz> := [
    Viz(Root + "bike/" + "avg_power.html", false),
    Viz(Root + "bike/" + "cumulative_tss.html", false),
    Viz(Root + "bike/" + "weekly_training_load.html", false),
    Viz(Root + "bike/" + "if_progression.html", false)
  ]

  const RunVizs: seq<Viz> := [
    Viz(Root + "run/" + "enhanced_running_data_analysis.html", false),
    Viz(Root + "run/" + "heart_rate_cadence_over_time.html", false),
    Viz(Root + "run/" + "pace_distance_over_time.html", false),
    Viz(Root + "run/" + "weekly_mileage_before_feb_25_2023.html", false)
  ]

  const DietVizs: seq<Viz> := [
    Viz(Root + "diet_sleep/" + "ironman_macronutrient_distribution" + "_20241024_130557.html", false),
    Viz(Root + "diet_sleep/" + "ironman_weight_and_calories_over_time" + "_20241024_130557.html", false),
    Viz(Root + "diet_sleep/" + "sleep_data_analysis" + "_20241024_130520.html", false)
  ]

  /** The table a routine draws its containers from; the intro and final
      routines add none. */
  function Table(k: SectionKind): seq<Viz> {
    match k
    case Genetic => GeneticVizs
    case Body => BodyVizs
    case Swim => SwimVizs
    case Bike => BikeVizs
    case Run => RunVizs
    case Diet => DietVizs
    case Intro => []
    case Final => []
  }

  /** The routines that fill the first grid of their section from a table. */
  predicate FillsFirstGrid(k: SectionKind) {
    k in {Genetic, Swim, Bike, Run, Diet}
  }

  /** In every table the `isLarge` flag agrees with the substring test that
      actually decides, so only the swim form analysis opens externally. */
  lemma TableFlagsAgree(k: SectionKind, i: nat)
    requires i < |Table(k)|
    ensures Table(k)[i].isLarge <==> IsLargeSource(Table(k)[i].src)
    ensures Table(k)[i].isLarge <==> k == Swim && i == 3
  {
    var src := Table(k)[i].src;
    if k == Swim && i == 3 {
      ContainsInContext(Root + "swim/", LargeMarker, "_1.html");
      assert Root + "swim/" + LargeMarker + "_1.html" == src;
    } else {
      // Each of the other paths lacks some letter of the marker.
      MissingLetter(src, LargeMarker, LetterMissingFrom(k, i));
    }
  }

  /** A letter of the marker that the path of entry `i` of table `k` lacks. */
  function LetterMissingFrom(k: SectionKind, i: nat): (c: char)
    requires i < |Table(k)| && !(k == Swim && i == 3)
    ensures c in LargeMarker && c !in Table(k)[i].src
  {
    MarkerLetters();
    match k
    case Genetic => GeneticLetters(i)
    case Body => BodyLetters(i)
    case Swim => SwimLetters(i)
    case Bike => BikeLetters(i)
    case Run => RunLetters(i)
    case Diet => DietLetters(i)
  }

  /** The letters the proofs below rely on all occur in the marker. */
  lemma MarkerLetters()
    ensures 'k' in LargeMarker && 'y' in LargeMarker && 'f' in LargeMarker && 'p' in LargeMarker
  {
    assert LargeMarker[0] == 'k' && LargeMarker[2] == 'y' && LargeMarker[4] == 'f' && LargeMarker[13] == 'p';
  }

  /** The shared directory lacks every letter used below. */
  lemma RootLacks()
    ensures 'k' !in Root && 'y' !in Root && 'f' !in Root && 'p' !in Root
  {
  }

  lemma Absent3(c: char, a: string, b: string, d: string)
    requires c !in a && c !in b && c !in d
    ensures c !in a + b + d
  {
  }

  lemma Absent4(c: char, a: string, b: string, d: string, e: string)
    requires c !in a && c !in b && c !in d && c !in e
    ensures c !in a + b + d + e
  {
  }

  /** A marker letter missing from entry `i` of the genetic table. */
  function GeneticLetters(i: nat): (c: char)
    requires i < |GeneticVizs|
    ensures c !in GeneticVizs[i].src
  {
    if i == 0 then
      GeneticEntry0();
      'k'
    else
      GeneticEntry1();
      'k'
  }

  lemma GeneticEntry0()
    ensures 'k' !in GeneticVizs[0].src
  {
    RootLacks();
    Absent3('k', Root, "genetic_analysis/", "genetic_performance_report.html");
  }

  lemma GeneticEntry1()
    ensures 'k' !in GeneticVizs[1].src
  {
    RootLacks();
    Absent4('k', Root, "genetic_analysis/", "athletic_genetics_overview", "_20241024_132540.html");
  }

  /** A marker letter missing from entry `i` of the body table. */
  function BodyLetters(i: nat): (c: char)
    requires i < |BodyVizs|
    ensures c !in BodyVizs[i].src
  {
    if i == 0 then
      BodyEntry0();
      'k'
    else if i == 1 then
      BodyEntry1();
      'k'
    else if i == 2 then
      BodyEntry2();
      'k'
    else
      BodyEntry3();
      'k'
  }

  lemma BodyEntry0()
    ensures 'k' !in BodyVizs[0].src
  {
    RootLacks();
    Absent4('k', Root, "body_composition/", "body_fat_percentage_over_time", "_20241024_134949.html");
  }

  lemma BodyEntry1()
    ensures 'k' !in BodyVizs[1].src
  {
    RootLacks();
    Absent4('k', Root, "body_composition/", "body_mass_over_time", "_20241024_134949.html");
  }

  lemma BodyEntry2()
    ensures 'k' !in BodyVizs[2].src
  {
    RootLacks();
    Absent4('k', Root, "body_composition/", "heart_rate_vs_activity_type", "_20241024_135605.html");
  }

  lemma BodyEntry3()
    ensures 'k' !in BodyVizs[3].src
  {
    RootLacks();
    Absent4('k', Root, "body_composition/", "vo2_max_trend", "_20241024_141609.html");
  }

  /** A marker letter missing from entry `i` of the swim table. */
  function SwimLetters(i: nat): (c: char)
    requires i < 3
    ensures c !in SwimVizs[i].src
  {
    if i == 0 then
      SwimEntry0();
      'k'
    else if i == 1 then
      SwimEntry1();
      'k'
    else
      SwimEntry2();
      'k'
  }

  lemma SwimEntry0()
    ensures 'k' !in SwimVizs[0].src
  {
    RootLacks();
    Absent3('k', Root, "swim/", "metrics_comparison.html");
  }

  lemma SwimEntry1()
    ensures 'k' !in SwimVizs[1].src
  {
    RootLacks();
    Absent3('k', Root, "swim/", "body_angle_analysis.html");
  }

  lemma SwimEntry2()
    ensures 'k' !in SwimVizs[2].src
  {
    RootLacks();
    Absent3('k', Root, "swim/", "avg_dps_swolf_over_time.html");
  }

  /** A marker letter missing from entry `i` of the bike table. */
  function BikeLetters(i: nat): (c: char)
    requires i < |BikeVizs|
    ensures c !in BikeVizs[i].src
  {
    if i == 0 then
      BikeEntry0();
      'f'
    else if i == 1 then
      BikeEntry1();
      'p'
    else if i == 2 then
      BikeEntry2();
      'f'
    else
      BikeEntry3();
      'y'
  }

  lemma BikeEntry0()
    ensures 'f' !in BikeVizs[0].src
  {
    RootLacks();
    Absent3('f', Root, "bike/", "avg_power.html");
  }

  lemma BikeEntry1()
    ensures 'p' !in BikeVizs[1].src
  {
    RootLacks();
    Absent3('p', Root, "bike/", "cumulative_tss.html");
  }

  lemma BikeEntry2()
    ensures 'f' !in BikeVizs[2].src
  {
    RootLacks();
    Absent3('f', Root, "bike/", "weekly_training_load.html");
  }

  lemma BikeEntry3()
    ensures 'y' !in BikeVizs[3].src
  {
    RootLacks();
    Absent3('y', Root, "bike/", "if_progression.html");
  }

  /** A marker letter missing from entry `i` of the run table. */
  function RunLetters(i: nat): (c: char)
    requires i < |RunVizs|
    ensures c !in RunVizs[i].src
  {
    if i == 0 then
      RunEntry0();
      'k'
    else if i == 1 then
      RunEntry1();
      'k'
    else if i == 2 then
      RunEntry2();
      'k'
    else
      RunEntry3();
      'p'
  }

  lemma RunEntry0()
    ensures 'k' !in RunVizs[0].src
  {
    RootLacks();
    Absent3('k', Root, "run/", "enhanced_running_data_analysis.html");
  }

  lemma RunEntry1()
    ensures 'k' !in RunVizs[1].src
  {
    RootLacks();
    Absent3('k', Root, "run/", "heart_rate_cadence_over_time.html");
  }

  lemma RunEntry2()
    ensures 'k' !in RunVizs[2].src
  {
    RootLacks();
    Absent3('k', Root, "run/", "pace_distance_over_time.html");
  }

  lemma RunEntry3()
    ensures 'p' !in RunVizs[3].src
  {
    RootLacks();
    Absent3('p', Root, "run/", "weekly_mileage_before_feb_25_2023.html");
  }

  /** A marker letter missing from entry `i` of the diet table. */
  function DietLetters(i: nat): (c: char)
    requires i < |DietVizs|
    ensures c !in DietVizs[i].src
  {
    if i == 0 then
      DietEntry0();
      'k'
    else if i == 1 then
      DietEntry1();
      'k'
    else
      DietEntry2();
      'k'
  }

  lemma DietEntry0()
    ensures 'k' !in DietVizs[0].src
  {
    RootLacks();
    Absent4('k', Root, "diet_sleep/", "ironman_macronutrient_distribution", "_20241024_130557.html");
  }

  lemma DietEntry1()
    ensures 'k' !in DietVizs[1].src
  {
    RootLacks();
    Absent4('k', Root, "diet_sleep/", "ironman_weight_and_calories_over_time", "_20241024_130557.html");
  }

  lemma DietEntry2()
    ensures 'k' !in DietVizs[2].src
  {
    RootLacks();
    Absent4('k', Root, "diet_sleep/", "sleep_data_analysis", "_20241024_130520.html");
  }

  /* ---------------------------------------------------------------------- */
  /* The page                                                               */
  /* ---------------------------------------------------------------------- */

  /** A section element: loading indicators and error messages it holds, its
      visualization grids in document order, its count-up elements. */
  datatype Section = Section(
    indicators: nat,
    errors: nat,
    grids: seq<seq<Container>>,
    counters: seq<Counter>)

  /** The section elements present in the document, by id. */
  type Page = map<string, Section>

  /** `showLoadingIndicator`: appends an indicator unless the section is
      missing or already shows one. */
  function ShowIndicator(page: Page, id: string): (r: Page)
    ensures r.Keys == page.Keys
    ensures forall x :: x in page && x != id ==> r[x] == page[x]
    ensures id in page ==> r[id] == page[id].(indicators := r[id].indicators)
    ensures id in page ==> r[id].indicators >= 1
    ensures id in page && page[id].indicators == 0 ==> r[id].indicators == 1
    ensures id in page && page[id].indicators >= 1 ==> r[id].indicators == page[id].indicators
  {
    if id in page && page[id].indicators == 0 then page[id := page[id].(indicators := 1)]
    else page
  }

  /** `hideLoadingIndicator`: removes the first indicator of the section, if
      there is one. */
  function HideIndicator(page: Page, id: string): (r: Page)
    ensures r.Keys == page.Keys
    ensures forall x :: x in page && x != id ==> r[x] == page[x]
    ensures id in page ==> r[id] == page[id].(indicators := r[id].indicators)
    ensures id in page && page[id].indicators > 0 ==> r[id].indicators + 1 == page[id].indicators
    ensures id in page && page[id].indicators == 0 ==> r[id].indicators == 0
  {
    if id in page && page[id].indicators > 0 then
      page[id := page[id].(indicators := page[id].indicators - 1)]
    else page
  }

  /** `showErrorMessage`: appends an error message to the section, if it is
      present. */
  function ShowError(page: Page, id: string): (r: Page)
    ensures r.Keys == page.Keys
    ensures forall x :: x in page && x != id ==> r[x] == page[x]
    ensures id in page ==> r[id] == page[id].(errors := page[id].errors + 1)
  {
    if id in page then page[id := page[id].(errors := page[id].errors + 1)] else page
  }

  /* ---------------------------------------------------------------------- */
  /* Population routines                                                    */
  /* ---------------------------------------------------------------------- */

  /** How a routine ended: normally, or by throwing; either way with the
      page it leaves behind. */
  datatype Attempt = Done(page: Page) | Threw(page: Page)

  /** One new container per descriptor, in table order. */
  function Containers(vs: seq<Viz>): (cs: seq<Container>)
    ensures |cs| == |vs|
    ensures forall i :: 0 <= i < |vs| ==> cs[i] == CreateContainer(vs[i])
  {
    seq(|vs|, i requires 0 <= i < |vs| => CreateContainer(vs[i]))
  }

  /** The body-composition split: the first grid gets the first two
      descriptors and every later grid the last two. */
  function FillBody(grids: seq<seq<Container>>): (r: seq<seq<Container>>)
    ensures |r| == |grids|
    ensures forall i :: 0 <= i < |grids| ==>
      r[i] == grids[i] + Containers(if i == 0 then BodyVizs[..2] else BodyVizs[2..])
  {
    seq(|grids|, i requires 0 <= i < |grids| =>
      grids[i] + Containers(if i == 0 then BodyVizs[..2] else BodyVizs[2..]))
  }

  /** The grid guard of the table routines: the first grid is missing or
      already has children. */
  predicate FirstGridTaken(sec: Section) {
    |sec.grids| == 0 || |sec.grids[0]| > 0
  }

  /** The routine registered under `SectionId(k)`, run on `page`. Each one
      looks its section element up and throws when it is missing. The intro
      routine changes nothing else here; the final routine starts the
      count-up of every element not yet animated; the table routines add
      their containers unless the first grid already has children. */
  function Populate(k: SectionKind, page: Page): (r: Attempt)
    ensures r.Threw? <==> SectionId(k) !in page
    ensures r.page.Keys == page.Keys
    ensures forall x :: x in page && x != SectionId(k) ==> r.page[x] == page[x]
    ensures SectionId(k) in page ==>
      && r.page[SectionId(k)].indicators == page[SectionId(k)].indicators
      && r.page[SectionId(k)].errors == page[SectionId(k)].errors
  {
    var id := SectionId(k);
    if id !in page then Threw(page)
    else
      var sec := page[id];
      match k
      case Intro => Done(page)
      case Final => Done(page[id := sec.(counters := AnimateAll(sec.counters).0)])
      case Body =>
        if |sec.grids| > 0 && |sec.grids[0]| > 0 then Done(page)
        else Done(page[id := sec.(grids := FillBody(sec.grids))])
      case _ =>
        if FirstGridTaken(sec) then Done(page)
        else Done(page[id := sec.(grids := sec.grids[0 := Containers(Table(k))])])
  }

  /** A routine reads only the grids and counters of its section, so a page
      differing in indicator and error counts alone gets the same grids and
      counters. */
  lemma PopulateReadsLayout(k: SectionKind, page: Page, page': Page)
    requires page'.Keys == page.Keys
    requires forall x :: x in page ==> page'[x].grids == page[x].grids && page'[x].counters == page[x].counters
    ensures Populate(k, page').Threw? == Populate(k, page).Threw?
    ensures SectionId(k) in page ==>
      && Populate(k, page').page[SectionId(k)].grids == Populate(k, page).page[SectionId(k)].grids
      && Populate(k, page').page[SectionId(k)].counters == Populate(k, page).page[SectionId(k)].counters
  {
  }

  /** The final routine runs `animateNumbers` on its section: every count-up
      element ends marked animated, the pending ones start, and the grids
      stay as they were. */
  lemma FinalAnimates(page: Page)
    requires SectionId(Final) in page
    ensures Populate(Final, page).Done?
    ensures var sec, after := page[SectionId(Final)], Populate(Final, page).page[SectionId(Final)];
      && after.counters == AnimateAll(sec.counters).0
      && after.grids == sec.grids
  {
  }

  /** The intro routine leaves everything the model keeps unchanged. */
  lemma IntroChangesNothing(page: Page)
    requires SectionId(Intro) in page
    ensures Populate(Intro, page) == Done(page)
  {
  }

  /** A table routine whose first grid is missing or non-empty changes nothing;
      given an empty first grid it fills that grid with its table, in order,
      and leaves every other grid alone. */
  lemma FirstGridGuard(k: SectionKind, page: Page)
    requires FillsFirstGrid(k) && SectionId(k) in page
    ensures var sec := page[SectionId(k)];
      FirstGridTaken(sec) ==> Populate(k, page) == Done(page)
    ensures var sec := page[SectionId(k)];
      !FirstGridTaken(sec) ==>
        && Populate(k, page).Done?
        && var after := Populate(k, page).page[SectionId(k)];
        && |after.grids| == |sec.grids|
        && after.grids[0] == Containers(Table(k))
        && (forall g :: 1 <= g < |sec.grids| ==> after.grids[g] == sec.grids[g])
        && after.counters == sec.counters
  {
  }

  /** The body routine, unless its first grid has children, appends the first
      two descriptors to grid 0 and the last two to every later grid. */
  lemma BodySplit(page: Page)
    requires SectionId(Body) in page
    ensures var sec := page[SectionId(Body)];
      |sec.grids| > 0 && |sec.grids[0]| > 0 ==> Populate(Body, page) == Done(page)
    ensures var sec := page[SectionId(Body)];
      !(|sec.grids| > 0 && |sec.grids[0]| > 0) ==>
        && Populate(Body, page).Done?
        && var after := Populate(Body, page).page[SectionId(Body)];
        && |after.grids| == |sec.grids|
        && (|sec.grids| > 0 ==> after.grids[0] == Containers(BodyVizs[..2]))
        && (forall g :: 1 <= g < |sec.grids| ==>
              after.grids[g] == sec.grids[g] + Containers(BodyVizs[2..]))
  {
    var sec := page[SectionId(Body)];
    if |sec.grids| > 0 && |sec.grids[0]| == 0 {
      assert sec.grids[0] + Containers(BodyVizs[..2]) == Containers(BodyVizs[..2]);
    }
  }

  /** Running a routine a second time on the page its successful run left
      behind changes nothing. */
  lemma PopulateIdempotent(k: SectionKind, page: Page)
    requires Populate(k, page).Done?
    ensures Populate(k, Populate(k, page).page) == Populate(k, page)
  {
    var id := SectionId(k);
    var after := Populate(k, page).page;
    match k {
      case Final =>
        AnimateAllIdempotent(page[id].counters);
        assert after[id := after[id].(counters := AnimateAll(after[id].counters).0)] == after;
      case Body =>
        var sec := page[id];
        if !(|sec.grids| > 0 && |sec.grids[0]| > 0) && |sec.grids| > 0 {
          assert |after[id].grids[0]| == |sec.grids[0]| + 2;
        }
      case _ =>
    }
  }

  /* ---------------------------------------------------------------------- */
  /* loadSection                                                            */
  /* ---------------------------------------------------------------------- */

  /** The loader's state: the ids loaded so far and the page. */
  datatype LoaderState = LoaderState(loaded: set<string>, page: Page)

  /** The steps `loadSection` takes, in order; `Called` names what the
      lookup found. */
  datatype Event = IndicatorShown | Called(entry: Entry) | ErrorShown | IndicatorHidden

  /** A call's result: the new state and the steps it took. */
  datatype Outcome = Outcome(state: LoaderState, trace: seq<Event>)

  /** Whether calling what the lookup found throws: a routine throws when
      its section element is missing or the browser raises `fault`; an
      inherited member throws or not by itself. */
  predicate CallThrows(e: Entry, page: Page, fault: bool) {
    match e
    case Own(k) => fault || SectionId(k) !in page
    case Inherited(_, throws) => throws
  }

  /** `loadSection(id)`. `fault` stands for an exception the browser raises
      inside a routine before it changes the page; a routine also throws
      when its section element is missing. */
  function LoadSection(s: LoaderState, id: string, fault: bool): (r: Outcome)
    ensures id in s.loaded || Lookup(id).None? ==> r == Outcome(s, [])
    ensures id !in s.loaded && Lookup(id).Some? ==>
      && (r.trace == [IndicatorShown, Called(Lookup(id).value), IndicatorHidden]
          || r.trace == [IndicatorShown, Called(Lookup(id).value), ErrorShown, IndicatorHidden])
      && (r.state.loaded == s.loaded + {id} <==> ErrorShown !in r.trace)
      && (r.state.loaded == s.loaded <==> ErrorShown in r.trace)
      && (ErrorShown in r.trace <==> CallThrows(Lookup(id).value, s.page, fault))
    ensures r.state.page.Keys == s.page.Keys
    ensures forall x :: x in s.page && x != id ==> r.state.page[x] == s.page[x]
    ensures id !in s.loaded && Lookup(id).Some? && id in s.page ==>
      var sec, after := s.page[id], r.state.page[id];
      && (Lookup(id).value.Own? && !fault ==>
            && after.grids == Populate(Lookup(id).value.kind, s.page).page[id].grids
            && after.counters == Populate(Lookup(id).value.kind, s.page).page[id].counters)
      && (Lookup(id).value.Inherited? || fault ==>
            after.grids == sec.grids && after.counters == sec.counters)
  {
    if id in s.loaded then Outcome(s, [])
    else match Lookup(id)
      case None => Outcome(s, [])
      case Some(e) =>
        var shown := ShowIndicator(s.page, id);
        var attempt := match e
          case Own(k) => if fault then Threw(shown) else (PopulateReadsLayout(k, s.page, shown); Populate(k, shown))
          case Inherited(_, throws) => if throws then Threw(shown) else Done(shown);
        match attempt
        case Done(p) =>
          Outcome(LoaderState(s.loaded + {id}, HideIndicator(p, id)),
                  [IndicatorShown, Called(e), IndicatorHidden])
        case Threw(p) =>
          Outcome(LoaderState(s.loaded, HideIndicator(ShowError(p, id), id)),
                  [IndicatorShown, Called(e), ErrorShown, IndicatorHidden])
  }

  /** After a successful load, loading the same id again is a no-op. */
  lemma LoadedIsIdempotent(s: LoaderState, id: string, fault: bool, fault': bool)
    requires ErrorShown !in LoadSection(s, id, fault).trace
    ensures var s' := LoadSection(s, id, fault).state;
      LoadSection(s', id, fault') == Outcome(s', [])
  {
  }

  /** After a failed load the id is still not loaded, so the next call makes
      the same call again, and a routine then succeeds once its section is
      there and the browser raises nothing. */
  lemma FailureAllowsRetry(s: LoaderState, id: string, fault: bool, fault': bool)
    requires ErrorShown in LoadSection(s, id, fault).trace
    ensures var s' := LoadSection(s, id, fault).state;
      && id !in s'.loaded
      && Called(Lookup(id).value) in LoadSection(s', id, fault').trace
      && (Lookup(id).value.Own? && !fault' && id in s.page ==> id in LoadSection(s', id, fault').state.loaded)
  {
  }

  /** The error message is appended on the failure path alone, and only
      when the section element exists. */
  lemma ErrorOnlyOnFailure(s: LoaderState, id: string, fault: bool)
    requires id in s.page
    ensures var r := LoadSection(s, id, fault);
      r.state.page[id].errors == s.page[id].errors + (if ErrorShown in r.trace then 1 else 0)
  {
  }

  /** With at most one indicator in the section beforehand, a call that runs
      what the lookup found leaves none behind, on success and on failure
      alike. */
  lemma IndicatorRemovedOnEveryPath(s: LoaderState, id: string, fault: bool)
    requires id !in s.loaded && Lookup(id).Some?
    requires id in s.page && s.page[id].indicators <= 1
    ensures LoadSection(s, id, fault).state.page[id].indicators == 0
  {
  }

  /** An id the loader may record: the lookup finds something whose call
      can return normally. */
  predicate Recordable(id: string) {
    Lookup(id).Some? && !(Lookup(id).value.Inherited? && Lookup(id).value.throws)
  }

  /** Only ids the lookup finds are ever recorded as loaded, and never one
      whose inherited member always throws. */
  lemma LoadedAreRecordable(s: LoaderState, id: string, fault: bool)
    requires forall x :: x in s.loaded ==> Recordable(x)
    ensures forall x :: x in LoadSection(s, id, fault).state.loaded ==> Recordable(x)
  {
  }

  /** An inherited member such as `toString` is found, called without
      throwing, and recorded as a loaded section. */
  lemma InheritedMemberIsRecorded(s: LoaderState, id: string, fault: bool)
    requires id == "toString" && id !in s.loaded
    ensures LoadSection(s, id, fault).state.loaded == s.loaded + {id}
    ensures LoadSection(s, id, fault).trace[1] == Called(Inherited(id, false))
  {
  }

  /** `__proto__` finds `Object.prototype`, whose missing `call` throws, so
      the id takes the error path and stays unloaded. */
  lemma ProtoTakesErrorPath(s: LoaderState, id: string, fault: bool)
    requires id == "__proto__" && id !in s.loaded
    ensures ErrorShown in LoadSection(s, id, fault).trace
    ensures LoadSection(s, id, fault).state.loaded == s.loaded
  {
  }

  /** Loading the final section, when it is present and nothing is raised,
      marks every count-up element animated and records the section. */
  lemma LoadingFinalAnimates(s: LoaderState, fault: bool)
    requires SectionId(Final) !in s.loaded && SectionId(Final) in s.page && !fault
    ensures var r := LoadSection(s, SectionId(Final), fault);
      && SectionId(Final) in r.state.loaded
      && r.state.page[SectionId(Final)].counters == AnimateAll(s.page[SectionId(Final)].counters).0
  {
  }

  /** Two successive calls for one id both make their call exactly when
      the first one failed. */
  lemma AtMostOnePopulationAfterSuccess(s: LoaderState, id: string, f1: bool, f2: bool)
    ensures var r1 := LoadSection(s, id, f1);
      var r2 := LoadSection(r1.state, id, f2);
      (r1.trace != [] && r2.trace != []) <==> ErrorShown in r1.trace
  {
  }
}

=== FILE: serviceworker.dfy ===
/** The offline cache worker (`sw.js`): three lifecycle handlers over the
    browser's named caches.

    - install opens the generation `CacheName` and stores the fixed list of
      assets in it, all or nothing;
    - fetch answers from any generation that holds the request, without the
      network; on a miss it fetches, and copies a same-origin 200 response
      for a page, stylesheet or script path into `CacheName`;
    - activate deletes every generation but `CacheName`.

    The cache storage is its generations in creation order (the order
    `caches.match` searches them), each a name and a map from request to
    response. Requests are compared as values; the network is a map from
    request to the response it would give, a missing request being a
    network failure. */
module ServiceWorker {
  import opened Wrappers
  import opened Strings

  /* ---------------------------------------------------------------------- */
  /* Requests, responses, constants                                         */
  /* ---------------------------------------------------------------------- */

  /** A request; only its URL is read by the worker. The URL is the whole
      of `event.request.url`, host included; the asset list's paths stand
      for the absolute URLs they resolve to on the worker's origin. */
  datatype Request = Request(url: string)

  /** `Response.type`. */
  datatype ResponseType = Basic | Cors | Default | Error | Opaque | OpaqueRedirect

  datatype Response = Response(status: int, kind: ResponseType, body: string)

  /** The generation this version of the worker owns. */
  const CacheName: string := "ironman-2023-v1"

  /** The assets stored at install. */
  const UrlsToCache: seq<string> := [
    "/",
    "/index_optimized.html",
    "/css/optimized-styles.css",
    "/js/lazy-loader.js",
    "/course_maps/IM24_LP_CourseMap_Swim_081423_cc-1_large.webp",
    "/course_maps/IM24_LP_CourseMap_Bike_081423_cc-1_large.webp",
    "/course_maps/IM24_LP_CourseMap_Run_081423_cc-1_large.webp"
  ]

  /** What `cache.addAll` demands of every response (its algorithm in the
      Service Workers specification): not a network error, an ok status
      (200 to 299), and not 206 Partial Content. */
  predicate Addable(r: Response) {
    r.kind != Error && 200 <= r.status <= 299 && r.status != 206
  }

  /* ---------------------------------------------------------------------- */
  /* Cache storage                                                          */
  /* ---------------------------------------------------------------------- */

  type Entries = map<Request, Response>

  datatype Generation = Generation(name: string, entries: Entries)

  /** All generations, oldest first. */
  type Storage = seq<Generation>

  function Names(st: Storage): set<string> {
    if |st| == 0 then {} else {st[0].name} + Names(st[1..])
  }

  /** No two generations share a name. */
  predicate WellFormed(st: Storage) {
    |st| == 0 || (st[0].name !in Names(st[1..]) && WellFormed(st[1..]))
  }

  /** `caches.open(name)` without creating: the entries of the generation
      called `name`, if there is one. */
  function Find(st: Storage, name: string): (r: Option<Entries>)
    ensures r.Some? <==> name in Names(st)
  {
    if |st| == 0 then None
    else if st[0].name == name then Some(st[0].entries)
    else Find(st[1..], name)
  }

  /** The entries of generation `name`, or none when it does not exist. */
  function EntriesOf(st: Storage, name: string): Entries {
    match Find(st, name)
    case Some(e) => e
    case None => map[]
  }

  /** `caches.open(name)`: the storage once generation `name` exists; a new
      one is empty and comes last. */
  function Open(st: Storage, name: string): (r: Storage)
    ensures Names(r) == Names(st) + {name}
    ensures WellFormed(st) ==> WellFormed(r)
    ensures Find(r, name) == Some(EntriesOf(st, name))
    ensures forall n :: n != name ==> Find(r, n) == Find(st, n)
    ensures name in Names(st) ==> r == st
    ensures name !in Names(st) ==> r == st + [Generation(name, map[])]
  {
    if name in Names(st) then st
    else
      AppendLast(st, Generation(name, map[]));
      st + [Generation(name, map[])]
  }

  lemma {:induction false} AppendLast(st: Storage, g: Generation)
    requires g.name !in Names(st)
    ensures Names(st + [g]) == Names(st) + {g.name}
    ensures WellFormed(st) ==> WellFormed(st + [g])
    ensures Find(st + [g], g.name) == Some(g.entries)
    ensures forall n :: n != g.name ==> Find(st + [g], n) == Find(st, n)
  {
    if |st| > 0 {
      assert (st + [g])[1..] == st[1..] + [g];
      AppendLast(st[1..], g);
    } else {
      assert (st + [g])[1..] == [];
    }
  }

  /** `cache.put(req, resp)` on generation `name`: that generation maps the
      request to the response; nothing else changes. */
  function Put(st: Storage, name: string, req: Request, resp: Response): (r: Storage)
    ensures |r| == |st| && Names(r) == Names(st)
    ensures WellFormed(st) ==> WellFormed(r)
    ensures WellFormed(st) && name in Names(st) ==>
      Find(r, name) == Some(EntriesOf(st, name)[req := resp])
    ensures forall n :: n != name ==> Find(r, n) == Find(st, n)
    ensures forall i :: 0 <= i < |st| && st[i].name != name ==> r[i] == st[i]
  {
    if |st| == 0 then []
    else
      var head := if st[0].name == name then st[0].(entries := st[0].entries[req := resp]) else st[0];
      var rest := Put(st[1..], name, req, resp);
      assert ([head] + rest)[1..] == rest;
      [head] + rest
  }

  /** True iff every generation other than `name` is as it was and no other
      generation appeared: all writes went to `name`. */
  ghost predicate OnlyWrites(st: Storage, st': Storage, name: string) {
    forall n :: n != name ==> Find(st', n) == Find(st, n)
  }

  /** Generation `i` is the oldest that holds `req`. */
  ghost predicate FirstHolder(st: Storage, req: Request, i: int) {
    && 0 <= i < |st|
    && req in st[i].entries
    && forall j :: 0 <= j < i ==> req !in st[j].entries
  }

  /** `caches.match(req)`: the response of the oldest generation that holds
      the request. */
  function Match(st: Storage, req: Request): (r: Option<Response>)
    ensures r.None? <==> forall i :: 0 <= i < |st| ==> req !in st[i].entries
    ensures r.Some? ==> exists i :: FirstHolder(st, req, i) && st[i].entries[req] == r.value
  {
    if |st| == 0 then None
    else if req in st[0].entries then
      assert req in st[0].entries && st[0].entries[req] == st[0].entries[req];
      Some(st[0].entries[req])
    else
      var r := Match(st[1..], req);
      assert forall i :: 1 <= i < |st| ==> st[1..][i - 1] == st[i];
      if r.Some? then
        assert exists i :: FirstHolder(st, req, i) && st[i].entries[req] == r.value by {
          var i :| FirstHolder(st[1..], req, i) && st[1..][i].entries[req] == r.value;
          assert forall j :: 0 <= j < i + 1 ==> req !in st[j].entries by {
            forall j | 0 <= j < i + 1 ensures req !in st[j].entries {
              if j > 0 { assert st[j] == st[1..][j - 1]; }
            }
          }
        }
        r
      else r
  }

  /* ---------------------------------------------------------------------- */
  /* install                                                                */
  /* ---------------------------------------------------------------------- */

  /** The entries `cache.addAll(urls)` stores: each listed URL's request
      mapped to its network response. */
  function Stored(urls: seq<string>, net: map<Request, Response>): (m: Entries)
    requires forall u :: u in urls ==> Request(u) in net
    ensures forall u :: u in urls ==> Request(u) in m && m[Request(u)] == net[Request(u)]
    ensures forall q :: q in m ==> q.url in urls
  {
    map q | q in net && q.url in urls :: net[q]
  }

  /** Puts every listed URL's network response into generation `name`, in
      list order. */
  function PutAll(st: Storage, name: string, urls: seq<string>, net: map<Request, Response>): (r: Storage)
    requires forall u :: u in urls ==> Request(u) in net
    ensures Names(r) == Names(st)
    ensures WellFormed(st) ==> WellFormed(r)
    ensures forall n :: n != name ==> Find(r, n) == Find(st, n)
    ensures WellFormed(st) && name in Names(st) ==>
      EntriesOf(r, name) == EntriesOf(st, name) + Stored(urls, net)
    decreases |urls|
  {
    if |urls| == 0 then
      StoredNone(EntriesOf(st, name), urls, net);
      st
    else
      var last := urls[|urls| - 1];
      var init := urls[..|urls| - 1];
      StoredSnoc(EntriesOf(st, name), urls, net);
      Put(PutAll(st, name, init, net), name, Request(last), net[Request(last)])
  }

  /** Nothing is stored for an empty list. */
  lemma StoredNone(before: Entries, urls: seq<string>, net: map<Request, Response>)
    requires |urls| == 0
    ensures before + Stored(urls, net) == before
  {
  }

  /** Storing a list is storing all but its last URL, then the last one. */
  lemma StoredSnoc(before: Entries, urls: seq<string>, net: map<Request, Response>)
    requires |urls| > 0 && forall u :: u in urls ==> Request(u) in net
    ensures var last := Request(urls[|urls| - 1]);
      && (forall u :: u in urls[..|urls| - 1] ==> Request(u) in net)
      && before + Stored(urls, net)
         == (before + Stored(urls[..|urls| - 1], net))[last := net[last]]
  {
    var init, last := urls[..|urls| - 1], urls[|urls| - 1];
    assert urls == init + [last];
    assert forall u :: u in init ==> u in urls;
  }

  /** The outcome of the install handler. */
  datatype InstallResult = InstallResult(ok: bool, storage: Storage)

  /** Every asset of the list is fetched with an ok response. */
  predicate AllFetched(net: map<Request, Response>) {
    forall u :: u in UrlsToCache ==> Request(u) in net && Addable(net[Request(u)])
  }

  /** The install handler: open `CacheName`, then `cache.addAll` of the list,
      which stores every response or, when any fetch fails or is not ok,
      none. */
  function Install(st: Storage, net: map<Request, Response>): (r: InstallResult)
    ensures r.ok <==> AllFetched(net)
    ensures CacheName in Names(r.storage)
    ensures WellFormed(st) ==> WellFormed(r.storage)
    ensures OnlyWrites(st, r.storage, CacheName)
    ensures WellFormed(st) ==>
      var before, after := EntriesOf(st, CacheName), EntriesOf(r.storage, CacheName);
      && (!r.ok ==> after == before)
      && (r.ok ==> forall u :: u in UrlsToCache ==> Request(u) in after && after[Request(u)] == net[Request(u)])
      && (r.ok ==> forall q :: q in before && q.url !in UrlsToCache ==> q in after && after[q] == before[q])
      && (r.ok ==> after == before + Stored(UrlsToCache, net))
  {
    var withGen := Open(st, CacheName);
    if AllFetched(net) then
      InstallResult(true, PutAll(withGen, CacheName, UrlsToCache, net))
    else InstallResult(false, withGen)
  }

  /* ---------------------------------------------------------------------- */
  /* fetch                                                                  */
  /* ---------------------------------------------------------------------- */

  /** Whichever generation first holds a request answers it, even when a
      later one, such as `ironman-2023-v1` after an install, holds it too. */
  lemma MatchIsFirstHolder(st: Storage, req: Request, i: int)
    requires FirstHolder(st, req, i)
    ensures Match(st, req) == Some(st[i].entries[req])
  {
    assert Match(st, req).Some?;
    var i' :| FirstHolder(st, req, i') && st[i'].entries[req] == Match(st, req).value;
    assert i' == i;
  }

  /** Before activate, an entry left in an older generation is served in
      preference to the current generation's entry for the same request. */
  lemma StaleServedBeforeActivate(previous: Generation, current: Entries, req: Request)
    requires previous.name != CacheName && req in previous.entries && req in current
    ensures Match([previous, Generation(CacheName, current)], req) == Some(previous.entries[req])
    ensures Match(Activate([previous, Generation(CacheName, current)]), req) == Some(current[req])
  {
    var st := [previous, Generation(CacheName, current)];
    assert st[1..][1..] == [];
  }

  /** The path test of the fetch handler: the URL contains `.html`, `.css`
      or `.js` anywhere. */
  predicate Cacheable(url: string) {
    Contains(url, ".html") || Contains(url, ".css") || Contains(url, ".js")
  }

  /** A response the fetch handler is willing to copy into the cache. */
  predicate Admissible(resp: Response) {
    resp.status == 200 && resp.kind == Basic
  }

  /** What the page receives. */
  datatype Reply = Answer(response: Response) | NetworkFailure

  /** The outcome of one fetch event: the reply, whether the network was
      asked, and the storage afterwards. */
  datatype FetchOutcome = FetchOutcome(reply: Reply, usedNetwork: bool, storage: Storage)

  /** The fetch handler for request `req`. */
  function HandleFetch(st: Storage, req: Request, net: map<Request, Response>): (r: FetchOutcome)
    ensures Match(st, req).Some? ==> r == FetchOutcome(Answer(Match(st, req).value), false, st)
    ensures Match(st, req).None? ==> r.usedNetwork
    ensures Match(st, req).None? && req !in net ==> r.reply == NetworkFailure && r.storage == st
    ensures Match(st, req).None? && req in net ==> r.reply == Answer(net[req])
    ensures r.storage != st ==>
      Match(st, req).None? && req in net && Admissible(net[req]) && Cacheable(req.url)
    ensures OnlyWrites(st, r.storage, CacheName)
    ensures WellFormed(st) ==> WellFormed(r.storage)
    ensures WellFormed(st) && Match(st, req).None? && req in net && Admissible(net[req]) && Cacheable(req.url) ==>
      EntriesOf(r.storage, CacheName) == EntriesOf(st, CacheName)[req := net[req]]
  {
    match Match(st, req)
    case Some(hit) => FetchOutcome(Answer(hit), false, st)
    case None =>
      if req !in net then FetchOutcome(NetworkFailure, true, st)
      else
        var resp := net[req];
        if !Admissible(resp) then FetchOutcome(Answer(resp), true, st)
        else if Cacheable(req.url) then
          var withGen := Open(st, CacheName);
          FetchOutcome(Answer(resp), true, Put(withGen, CacheName, req, resp))
        else FetchOutcome(Answer(resp), true, st)
  }

  /** After a miss that was cached, the same request is answered from the
      cache with the same response and without the network. */
  lemma CachedMissIsNextHit(st: Storage, req: Request, net: map<Request, Response>, net': map<Request, Response>)
    requires WellFormed(st)
    requires Match(st, req).None? && req in net && Admissible(net[req]) && Cacheable(req.url)
    ensures var st' := HandleFetch(st, req, net).storage;
      HandleFetch(st', req, net') == FetchOutcome(Answer(net[req]), false, st')
  {
    var st' := HandleFetch(st, req, net).storage;
    var withGen := Open(st, CacheName);
    assert st' == Put(withGen, CacheName, req, net[req]);
    OnlyGenerationHolding(st, withGen, st', req);
  }

  /** If no generation held `req` and only `CacheName` gained it, then
      `caches.match` finds it there. */
  lemma OnlyGenerationHolding(st: Storage, withGen: Storage, st': Storage, req: Request)
    requires WellFormed(st)
    requires withGen == Open(st, CacheName)
    requires Match(st, req).None?
    requires exists resp :: st' == Put(withGen, CacheName, req, resp)
    ensures Match(st', req) == Some(EntriesOf(st', CacheName)[req])
  {
    var resp :| st' == Put(withGen, CacheName, req, resp);
    NoMatchAfterOpen(st, req);
    PutMatch(withGen, CacheName, req, resp);
  }

  lemma NoMatchAfterOpen(st: Storage, req: Request)
    requires Match(st, req).None?
    ensures Match(Open(st, CacheName), req).None?
  {
    var o := Open(st, CacheName);
    if CacheName !in Names(st) {
      assert o == st + [Generation(CacheName, map[])];
      assert forall i :: 0 <= i < |o| ==> req !in o[i].entries by {
        forall i | 0 <= i < |o| ensures req !in o[i].entries {
          if i < |st| { assert o[i] == st[i]; }
        }
      }
    }
  }

  /** Putting a request no generation holds makes `caches.match` return it. */
  lemma {:induction false} PutMatch(st: Storage, name: string, req: Request, resp: Response)
    requires WellFormed(st) && name in Names(st) && Match(st, req).None?
    ensures Match(Put(st, name, req, resp), req) == Some(resp)
    ensures EntriesOf(Put(st, name, req, resp), name)[req] == resp
  {
    var r := Put(st, name, req, resp);
    if st[0].name != name {
      assert forall i :: 1 <= i < |st| ==> st[1..][i - 1] == st[i];
      PutMatch(st[1..], name, req, resp);
      assert r[1..] == Put(st[1..], name, req, resp);
    }
  }

  /* ---------------------------------------------------------------------- */
  /* activate                                                               */
  /* ---------------------------------------------------------------------- */

  /** The activate handler: every generation whose name is not `CacheName`
      is deleted. */
  function Activate(st: Storage): (r: Storage)
    ensures forall i :: 0 <= i < |r| ==> r[i].name == CacheName
    ensures Names(r) == Names(st) * {CacheName}
    ensures Find(r, CacheName) == Find(st, CacheName)
    ensures WellFormed(st) ==> WellFormed(r) && |r| <= 1
  {
    if |st| == 0 then []
    else
      var rest := Activate(st[1..]);
      if st[0].name == CacheName then
        assert ([st[0]] + rest)[1..] == rest;
        [st[0]] + rest
      else rest
  }

  /** Activating twice deletes nothing more. */
  lemma ActivateIdempotent(st: Storage)
    ensures Activate(Activate(st)) == Activate(st)
  {
    KeepsAll(Activate(st));
  }

  lemma {:induction false} KeepsAll(st: Storage)
    requires forall i :: 0 <= i < |st| ==> st[i].name == CacheName
    ensures Activate(st) == st
  {
    if |st| > 0 {
      KeepsAll(st[1..]);
      assert [st[0]] + st[1..] == st;
    }
  }

  /** Once activated, `caches.match` searches `CacheName` alone. */
  lemma MatchAfterActivate(st: Storage, req: Request)
    requires WellFormed(st)
    ensures var entries := EntriesOf(st, CacheName);
      Match(Activate(st), req) == if req in entries then Some(entries[req]) else None
  {
    var r := Activate(st);
    if |r| == 1 {
      assert r[1..] == [];
    }
  }

  /** Two generations, an older one and the current one: activate keeps only
      the current one, with all its entries. */
  lemma ActivateExample(previous: Entries, current: Entries)
    ensures Activate([Generation("ironman-2023-v0", previous), Generation(CacheName, current)])
      == [Generation(CacheName, current)]
  {
    var st := [Generation("ironman-2023-v0", previous), Generation(CacheName, current)];
    assert st[1..][1..] == [];
  }

  /** A worker that installed successfully and then activated answers every
      listed asset from the cache, with the response install stored, without
      the network. */
  lemma InstalledAssetsServedOffline(st: Storage, net: map<Request, Response>, net': map<Request, Response>, u: string)
    requires WellFormed(st) && AllFetched(net) && u in UrlsToCache
    ensures var live := Activate(Install(st, net).storage);
      HandleFetch(live, Request(u), net') == FetchOutcome(Answer(net[Request(u)]), false, live)
  {
    var installed := Install(st, net).storage;
    MatchAfterActivate(installed, Request(u));
  }

  /** The path test matches on substrings: a `.json` path passes through its
      `.js` prefix. */
  lemma JsonIsCacheable(url: string)
    requires url == "/data/stats.json"
    ensures Cacheable(url)
  {
    assert url[11..14] == ".js";
    assert OccursAt(url, ".js", 11);
  }

  /** The path `/img/logo.png` has none of the three extensions and is not
      cached. */
  lemma ImageIsNotCacheable(url: string)
    requires url == "/img/logo.png"
    ensures !Cacheable(url)
  {
    assert 'h' !in url && 'c' !in url && 'j' !in url;
    MissingLetter(url, ".html", 'h');
    MissingLetter(url, ".css", 'c');
    MissingLetter(url, ".js", 'j');
  }

  /** The test reads the whole URL, host included: an image served from a
      host whose name contains `.js` is cached like a script. */
  lemma HostDecides(url: string)
    requires url == "https://x.js.org/img/logo.png"
    ensures Cacheable(url)
  {
    assert url[9..12] == ".js";
    assert OccursAt(url, ".js", 9);
  }

  /** A response from another origin or with another status is handed to the
      page but never stored. */
  lemma NotAdmittedNotStored(st: Storage, req: Request, net: map<Request, Response>)
    requires Match(st, req).None? && req in net && !Admissible(net[req])
    ensures HandleFetch(st, req, net) == FetchOutcome(Answer(net[req]), true, st)
  {
  }
}

=== FILE: strings.dfy ===
/** Text helpers the loader and the service worker rely on: substring search
    (`String.prototype.includes`), splitting on one separator character
    (`String.prototype.split`), decimal parsing and printing (`parseInt`,
    `String(n)`), `padStart(2, '0')`, comma stripping and en-US thousands
    grouping (`toLocaleString`). Strings are sequences of characters. */
module Strings {

  /* ---------------------------------------------------------------------- */
  /* Substring search                                                       */
  /* ---------------------------------------------------------------------- */

  /** True iff `s` begins with `prefix`. */
  predicate StartsWith(s: string, prefix: string) {
    |prefix| <= |s| && s[..|prefix|] == prefix
  }

  /** True iff `sub` occurs at position `i` of `s`. */
  ghost predicate OccursAt(s: string, sub: string, i: int) {
    0 <= i && i + |sub| <= |s| && s[i..i + |sub|] == sub
  }

  /** `s.includes(sub)`: true exactly when `sub` occurs somewhere in `s`. */
  function Contains(s: string, sub: string): (r: bool)
    ensures r <==> exists i :: OccursAt(s, sub, i)
    ensures r ==> |sub| <= |s|
    decreases |s|
  {
    if StartsWith(s, sub) then
      assert OccursAt(s, sub, 0);
      true
    else if |s| == 0 then
      false
    else
      var r := Contains(s[1..], sub);
      if r then
        assert exists i :: OccursAt(s, sub, i) by {
          var i :| OccursAt(s[1..], sub, i);
          assert s[i + 1..i + 1 + |sub|] == s[1..][i..i + |sub|];
          assert OccursAt(s, sub, i + 1);
        }
        true
      else
        forall i | OccursAt(s, sub, i) ensures i > 0 && OccursAt(s[1..], sub, i - 1) {
          assert i != 0 by { assert !StartsWith(s, sub); }
          assert s[1..][i - 1..i - 1 + |sub|] == s[i..i + |sub|];
        }
        false
  }

  /** Whatever surrounds an occurrence, the occurrence is still found. */
  lemma ContainsInContext(pre: string, sub: string, post: string)
    ensures Contains(pre + sub + post, sub)
  {
    var s := pre + sub + post;
    assert s[|pre|..|pre| + |sub|] == sub;
    assert OccursAt(s, sub, |pre|);
  }

  /** A string lacking one of the characters of `sub` does not contain it. */
  lemma MissingLetter(s: string, sub: string, c: char)
    requires c in sub && c !in s
    ensures !Contains(s, sub)
  {
    var j :| 0 <= j < |sub| && sub[j] == c;
    forall i ensures !OccursAt(s, sub, i) {
      if 0 <= i && i + |sub| <= |s| {
        assert s[i..i + |sub|][j] == s[i + j];
      }
    }
  }

  /* ---------------------------------------------------------------------- */
  /* Splitting and joining on a separator                                   */
  /* ---------------------------------------------------------------------- */

  /** The pieces joined back with the separator between neighbours. */
  function Join(parts: seq<string>, sep: char): string
    requires |parts| > 0
  {
    if |parts| == 1 then parts[0] else parts[0] + [sep] + Join(parts[1..], sep)
  }

  /** `s.split(sep)`: the maximal separator-free pieces, in order; an empty
      string or adjacent separators give empty pieces. */
  function Split(s: string, sep: char): (parts: seq<string>)
    ensures |parts| > 0
    ensures forall i :: 0 <= i < |parts| ==> sep !in parts[i]
    ensures Join(parts, sep) == s
  {
    if |s| == 0 then [""]
    else
      var rest := Split(s[1..], sep);
      if s[0] == sep then
        assert [""] + rest == [""] + rest;
        assert ([""] + rest)[1..] == rest;
        [""] + rest
      else
        var parts := [[s[0]] + rest[0]] + rest[1..];
        assert parts[1..] == rest[1..];
        assert s == [s[0]] + s[1..];
        parts
  }

  /** Splitting undoes joining when no piece holds the separator. */
  lemma {:induction false} SplitJoin(parts: seq<string>, sep: char)
    requires |parts| > 0
    requires forall i :: 0 <= i < |parts| ==> sep !in parts[i]
    ensures Split(Join(parts, sep), sep) == parts
    decreases |parts|, |parts[0]|
  {
    if |parts| == 1 {
      SplitFree(parts[0], sep);
    } else if |parts[0]| == 0 {
      var s := Join(parts, sep);
      assert s == [sep] + Join(parts[1..], sep);
      assert s[1..] == Join(parts[1..], sep);
      SplitJoin(parts[1..], sep);
      assert Split(s, sep) == [""] + parts[1..];
      assert parts == [""] + parts[1..];
    } else {
      var s := Join(parts, sep);
      var shorter := [parts[0][1..]] + parts[1..];
      assert shorter[1..] == parts[1..];
      assert Join(shorter, sep) == parts[0][1..] + [sep] + Join(parts[1..], sep);
      assert s == [parts[0][0]] + Join(shorter, sep);
      assert s[1..] == Join(shorter, sep);
      assert parts[0][0] != sep by { assert parts[0][0] == parts[0][0]; }
      assert forall i :: 0 <= i < |shorter| ==> sep !in shorter[i] by {
        forall i | 0 <= i < |shorter| ensures sep !in shorter[i] {
          if i == 0 {
            assert sep !in parts[0];
          } else {
            assert shorter[i] == parts[i];
          }
        }
      }
      SplitJoin(shorter, sep);
      assert [parts[0][0]] + parts[0][1..] == parts[0];
      assert parts == [[parts[0][0]] + shorter[0]] + shorter[1..];
    }
  }

  /** A separator-free string splits into itself alone. */
  lemma {:induction false} SplitFree(s: string, sep: char)
    requires sep !in s
    ensures Split(s, sep) == [s]
  {
    if |s| > 0 {
      SplitFree(s[1..], sep);
      assert [s[0]] + s[1..] == s;
    }
  }

  /* ---------------------------------------------------------------------- */
  /* Decimal digits                                                         */
  /* ---------------------------------------------------------------------- */

  predicate IsDigit(c: char) {
    '0' <= c <= '9'
  }

  /** A non-empty string of decimal digits only: what `parseInt` reads in full. */
  predicate IsNumeral(s: string) {
    |s| > 0 && forall i :: 0 <= i < |s| ==> IsDigit(s[i])
  }

  function DigitValue(c: char): (d: nat)
    requires IsDigit(c)
    ensures d < 10
  {
    c as int - '0' as int
  }

  function DigitChar(d: nat): (c: char)
    requires d < 10
    ensures IsDigit(c) && DigitValue(c) == d
  {
    ('0' as int + d) as char
  }

  lemma DigitCharValue(c: char)
    requires IsDigit(c)
    ensures DigitChar(DigitValue(c)) == c
  {
  }

  /** `parseInt(s)` for a numeral: its value in base ten, most significant
      digit first. */
  function Parse(s: string): nat
    requires IsNumeral(s)
  {
    if |s| == 1 then DigitValue(s[0])
    else 10 * Parse(s[..|s| - 1]) + DigitValue(s[|s| - 1])
  }

  /** `String(n)`: the shortest decimal numeral of `n` (no leading zero). */
  function Show(n: nat): (s: string)
    ensures IsNumeral(s)
    ensures ':' !in s && ',' !in s
    ensures Parse(s) == n
    ensures |s| > 1 ==> s[0] != '0'
    ensures n < 10 <==> |s| == 1
  {
    if n < 10 then [DigitChar(n)]
    else
      var s := Show(n / 10) + [DigitChar(n % 10)];
      assert s[..|s| - 1] == Show(n / 10);
      s
  }

  /** `String(n).padStart(2, '0')`. */
  function Pad2(s: string): (r: string)
    ensures |r| == if |s| < 2 then 2 else |s|
    ensures r[|r| - |s|..] == s
    ensures forall i :: 0 <= i < |r| - |s| ==> r[i] == '0'
  {
    if |s| == 0 then "00" else if |s| == 1 then "0" + s else s
  }

  /** A leading zero does not change the value `parseInt` reads. */
  lemma {:induction false} ParseLeadingZero(s: string)
    requires IsNumeral(s)
    ensures IsNumeral("0" + s) && Parse("0" + s) == Parse(s)
  {
    var z := "0" + s;
    if |s| > 1 {
      assert z[..|z| - 1] == "0" + s[..|s| - 1];
      ParseLeadingZero(s[..|s| - 1]);
    }
  }

  /** A padded numeral still reads as the number it was printed from. */
  lemma ParsePad2(n: nat)
    ensures IsNumeral(Pad2(Show(n))) && Parse(Pad2(Show(n))) == n
    ensures ':' !in Pad2(Show(n))
  {
    if n < 10 {
      ParseLeadingZero(Show(n));
    }
  }

  /** A two-digit numeral is reproduced exactly by printing and padding its value. */
  lemma ShowPad2TwoDigits(d: string)
    requires IsNumeral(d) && |d| == 2
    ensures Parse(d) < 100
    ensures Pad2(Show(Parse(d))) == d
  {
    var hi, lo := DigitValue(d[0]), DigitValue(d[1]);
    ParseTwoDigits(d);
    DigitCharValue(d[0]);
    DigitCharValue(d[1]);
    assert d == [DigitChar(hi), DigitChar(lo)];
    if hi == 0 {
      ShowOneDigit(lo);
    } else {
      ShowTwoDigits(hi, lo);
    }
  }

  lemma ParseTwoDigits(d: string)
    requires IsNumeral(d) && |d| == 2
    ensures Parse(d) == 10 * DigitValue(d[0]) + DigitValue(d[1])
  {
    assert d[..1] == [d[0]];
  }

  lemma ShowOneDigit(n: nat)
    requires n < 10
    ensures Show(n) == [DigitChar(n)]
  {
  }

  lemma TensAndUnits(hi: nat, lo: nat)
    requires hi < 10 && lo < 10
    ensures (10 * hi + lo) / 10 == hi && (10 * hi + lo) % 10 == lo
  {
  }

  lemma ShowTwoDigits(hi: nat, lo: nat)
    requires 0 < hi < 10 && lo < 10
    ensures Show(10 * hi + lo) == [DigitChar(hi), DigitChar(lo)]
  {
    var v := 10 * hi + lo;
    TensAndUnits(hi, lo);
    ShowUnfold(v);
    ShowOneDigit(hi);
    var a, b := Show(v / 10), DigitChar(v % 10);
    assert a == [DigitChar(hi)];
    assert b == DigitChar(lo);
    assert a + [b] == [DigitChar(hi), DigitChar(lo)];
  }

  lemma ShowUnfold(v: nat)
    requires v >= 10
    ensures Show(v) == Show(v / 10) + [DigitChar(v % 10)]
  {
  }

  /* ---------------------------------------------------------------------- */
  /* Thousands separators                                                   */
  /* ---------------------------------------------------------------------- */

  /** `s.replace(/,/g, '')`: every comma removed, everything else kept in order. */
  function StripCommas(s: string): (r: string)
    ensures ',' !in r
    ensures forall c :: c != ',' ==> multiset(r)[c] == multiset(s)[c]
    ensures ',' !in s ==> r == s
  {
    if |s| == 0 then ""
    else
      assert s == [s[0]] + s[1..];
      if s[0] == ',' then StripCommas(s[1..]) else [s[0]] + StripCommas(s[1..])
  }

  /** Removing commas keeps the order: the result is as long as the
      non-commas of `s`, and each of them sits at its index less the commas
      before it. Together these fix the result character by character. */
  lemma {:induction false} StripCommasKeepsOrder(s: string)
    ensures |StripCommas(s)| == |s| - multiset(s)[',']
    ensures forall k :: 0 <= k < |s| && s[k] != ',' ==> KeptAt(s, StripCommas(s), k)
  {
    if |s| > 0 {
      assert s == [s[0]] + s[1..];
      StripCommasKeepsOrder(s[1..]);
      KeptShift(s, StripCommas(s[1..]), StripCommas(s));
    }
  }

  /** The character at index `k` of `s` sits in `r` at `k` less the commas
      before it. */
  ghost predicate KeptAt(s: string, r: string, k: int)
    requires 0 <= k < |s|
  {
    var at := k - multiset(s[..k])[','];
    0 <= at < |r| && r[at] == s[k]
  }

  /** Prepending a character moves every kept position of the tail by one,
      unless the character is a comma. */
  lemma KeptShift(s: string, tail: string, r: string)
    requires |s| > 0
    requires forall k :: 0 <= k < |s| - 1 && s[1..][k] != ',' ==> KeptAt(s[1..], tail, k)
    requires r == if s[0] == ',' then tail else [s[0]] + tail
    ensures forall k :: 0 <= k < |s| && s[k] != ',' ==> KeptAt(s, r, k)
  {
    forall k | 0 <= k < |s| && s[k] != ','
      ensures KeptAt(s, r, k)
    {
      if k > 0 {
        assert s[1..][k - 1] == s[k];
        KeptShiftAt(s, tail, r, k);
      }
    }
  }

  /** One position of `KeptShift`, past the first character. */
  lemma KeptShiftAt(s: string, tail: string, r: string, k: int)
    requires 0 < k < |s| && s[k] != ','
    requires KeptAt(s[1..], tail, k - 1)
    requires r == if s[0] == ',' then tail else [s[0]] + tail
    ensures KeptAt(s, r, k)
  {
    var before := s[1..][..k - 1];
    var c := multiset(before)[','];
    assert multiset(s[..k])[','] == c + (if s[0] == ',' then 1 else 0) by {
      assert s[..k] == [s[0]] + before;
    }
    assert 0 <= k - 1 - c < |tail| && tail[k - 1 - c] == s[k] by {
      assert s[1..][k - 1] == s[k];
    }
  }

  lemma {:induction false} StripCommasAppend(a: string, b: string)
    ensures StripCommas(a + b) == StripCommas(a) + StripCommas(b)
  {
    if |a| > 0 {
      assert (a + b)[1..] == a[1..] + b;
      StripCommasAppend(a[1..], b);
    } else {
      assert a + b == b;
    }
  }

  /** `n.toLocaleString()` in the en-US locale, applied to a numeral: a comma
      before every full group of three digits counted from the right. */
  function Group(d: string): (r: string)
    ensures |d| <= 3 ==> r == d
  {
    if |d| <= 3 then d
    else Group(d[..|d| - 3]) + "," + d[|d| - 3..]
  }

  /** Where the en-US grouping puts its commas: one per full group of three
      digits below the leading group, each followed by exactly three digits
      before the next comma or the end. */
  /** The commas of `Group(d)`: one per full group of three below the leading group, each a multiple of four
      characters from the end. */
  ghost predicate CommasEveryFourth(g: string) {
    forall i :: 0 <= i < |g| ==> (g[i] == ',' <==> 0 < i && (|g| - i) % 4 == 0)
  }

  lemma GroupLength(n: int)
    requires n > 3
    ensures (n - 3) + (n - 4) / 3 + 4 == n + (n - 1) / 3
  {
    assert (n - 1) / 3 == (n - 4) / 3 + 1;
  }

  /** One step of `Group`: appending a comma and three digits keeps the comma layout. */
  lemma CommasEveryFourthStep(gh: string, lo: string)
    requires CommasEveryFourth(gh) && |gh| > 0
    requires |lo| == 3 && ',' !in lo
    ensures CommasEveryFourth(gh + "," + lo)
  {
    var g := gh + "," + lo;
    forall i | 0 <= i < |g|
      ensures g[i] == ',' <==> 0 < i && (|g| - i) % 4 == 0
    {
      if i < |gh| {
        assert g[i] == gh[i];
        assert |g| - i == (|gh| - i) + 4;
      } else if i > |gh| {
        assert g[i] == lo[i - |gh| - 1];
      }
    }
  }

  lemma {:induction false} GroupCommas(d: string)
    requires IsNumeral(d)
    ensures |Group(d)| == |d| + (|d| - 1) / 3
    ensures CommasEveryFourth(Group(d))
  {
    if |d| <= 3 {
      forall i | 0 <= i < |d|
        ensures d[i] == ',' <==> 0 < i && (|d| - i) % 4 == 0
      {
        assert IsDigit(d[i]);
      }
    } else {
      var hi, lo := d[..|d| - 3], d[|d| - 3..];
      assert IsNumeral(hi) by {
        forall i | 0 <= i < |hi| ensures IsDigit(hi[i]) { assert hi[i] == d[i]; }
      }
      assert ',' !in lo by {
        forall i | 0 <= i < |lo| ensures lo[i] != ',' { assert lo[i] == d[|d| - 3 + i]; }
      }
      GroupCommas(hi);
      assert Group(d) == Group(hi) + "," + lo;
      CommasEveryFourthStep(Group(hi), lo);
      GroupLength(|d|);
    }
  }

  /** Removing the commas of a grouped numeral gives the numeral back. */
  lemma {:induction false} StripGroup(d: string)
    requires IsNumeral(d)
    ensures StripCommas(Group(d)) == d
  {
    if |d| > 3 {
      var hi, lo := d[..|d| - 3], d[|d| - 3..];
      assert ',' !in lo by {
        forall i | 0 <= i < |lo| ensures lo[i] != ',' {
          assert lo[i] == d[|d| - 3 + i];
        }
      }
      var g := Group(hi);
      assert StripCommas(g) == hi by { StripGroup(hi); }
      assert StripCommas(",") == "" by { assert ","[1..] == ""; }
      assert StripCommas(g + ",") == hi by { StripCommasAppend(g, ","); }
      assert StripCommas(g + "," + lo) == hi + lo by { StripCommasAppend(g + ",", lo); }
      assert hi + lo == d;
    }
  }
}

=== FILE: visualization.dfy ===
/** A visualization container of the lazy loader and what clicking it does
    (`createVisualizationContainer`, `loadVisualization`, `setupModal`).

    A fresh container carries a click listener that fires once. That first
    click decides between two presentations by a substring test on the
    source path, not by the descriptor's `isLarge` flag (which only adds a
    CSS class): a large source is opened in a new browsing context and
    nothing else happens, ever; any other source is embedded as an iframe
    and a second listener is attached that opens a modal on every later
    click except a click on the title. */
module Visualization {
  import opened Strings

  /** The path fragment that marks a source as too large to embed. */
  const LargeMarker: string := "key_frame_comparison"

  /** A descriptor of a section's static table: its source path and its
      `isLarge` flag. Titles and descriptions are display text only. */
  datatype Viz = Viz(src: string, isLarge: bool)

  /** Where a container stands in its click life cycle. */
  datatype Phase =
    | Waiting   // placeholder shown, the once-listener still attached
    | Spent     // the once-listener fired on a large source; no listener left
    | Embedded  // iframe in place, modal listener attached

  /** A container: its source, whether it carries the `large-viz` class,
      and its phase. */
  datatype Container = Container(src: string, largeClass: bool, phase: Phase)

  /** What a click makes the page do. */
  datatype Effect =
    | OpenExternally(url: string)  // window.open(src, '_blank')
    | EmbedIframe(url: string)     // the placeholder replaced by an iframe
    | OpenModal(url: string)       // a full-size modal showing the iframe

  /** The test `loadVisualization` uses to choose the external presentation. */
  predicate IsLargeSource(src: string) {
    Contains(src, LargeMarker)
  }

  /** A container reached by clicks: only a large source is spent and only
      another source is embedded. */
  predicate Consistent(c: Container) {
    && (c.phase == Spent ==> IsLargeSource(c.src))
    && (c.phase == Embedded ==> !IsLargeSource(c.src))
  }

  /** A new container for a descriptor, waiting for its first click. */
  function CreateContainer(v: Viz): (c: Container)
    ensures c.src == v.src && c.largeClass == v.isLarge && c.phase == Waiting
  {
    Container(v.src, v.isLarge, Waiting)
  }

  /** One click on a container, `onTitle` telling whether it landed on the
      title element. Returns the container afterwards and the effects. */
  function Click(c: Container, onTitle: bool): (r: (Container, seq<Effect>))
    ensures |r.1| <= 1
    ensures forall e :: e in r.1 ==> e.url == c.src
    ensures r.0.src == c.src && r.0.largeClass == c.largeClass
    ensures c.phase == Waiting ==> r.0.phase != Waiting && |r.1| == 1
    ensures c.phase != Waiting ==> r.0 == c
    ensures c.phase != Waiting && onTitle ==> r.1 == []
    ensures EmbedIframe(c.src) in r.1 ==> !IsLargeSource(c.src) && r.0.phase == Embedded
    ensures OpenExternally(c.src) in r.1 ==> IsLargeSource(c.src) && r.0.phase == Spent
    ensures OpenModal(c.src) in r.1 ==> c.phase == Embedded && !onTitle
    ensures Consistent(c) ==> Consistent(r.0)
  {
    match c.phase
    case Waiting =>
      if IsLargeSource(c.src) then (c.(phase := Spent), [OpenExternally(c.src)])
      else (c.(phase := Embedded), [EmbedIframe(c.src)])
    case Spent => (c, [])
    case Embedded => if onTitle then (c, []) else (c, [OpenModal(c.src)])
  }

  /** A sequence of clicks, in order; `clicks[i]` tells whether click `i`
      landed on the title. Returns the final container and all effects. */
  function Clicks(c: Container, clicks: seq<bool>): (r: (Container, seq<Effect>))
    ensures r.0.src == c.src && r.0.largeClass == c.largeClass
    ensures forall i :: 0 <= i < |r.1| ==> r.1[i].url == c.src
    ensures |r.1| <= |clicks|
    decreases |clicks|
  {
    if |clicks| == 0 then (c, [])
    else
      var first := Click(c, clicks[0]);
      var rest := Clicks(first.0, clicks[1..]);
      (rest.0, first.1 + rest.1)
  }

  /** How many clicks of a sequence miss the title. */
  function OffTitle(clicks: seq<bool>): (n: nat)
    ensures n <= |clicks|
  {
    if |clicks| == 0 then 0 else (if clicks[0] then 0 else 1) + OffTitle(clicks[1..])
  }

  /** However often a large source is clicked, the only effect is one
      external open: no iframe, no modal. */
  lemma {:induction false} LargeSourceOnlyOpensExternally(v: Viz, clicks: seq<bool>)
    requires IsLargeSource(v.src) && |clicks| > 0
    ensures Clicks(CreateContainer(v), clicks).1 == [OpenExternally(v.src)]
    ensures Clicks(CreateContainer(v), clicks).0.phase == Spent
  {
    var c := CreateContainer(v);
    var first := Click(c, clicks[0]);
    SpentIsInert(first.0, clicks[1..]);
  }

  /** A spent container ignores every further click. */
  lemma {:induction false} SpentIsInert(c: Container, clicks: seq<bool>)
    requires c.phase == Spent
    ensures Clicks(c, clicks) == (c, [])
  {
    if |clicks| > 0 {
      SpentIsInert(c, clicks[1..]);
    }
  }

  /** An embedded container opens one modal per click off the title and
      nothing else. */
  lemma {:induction false} EmbeddedOpensModals(c: Container, clicks: seq<bool>)
    requires c.phase == Embedded
    ensures Clicks(c, clicks).0 == c
    ensures |Clicks(c, clicks).1| == OffTitle(clicks)
    ensures forall i :: 0 <= i < |Clicks(c, clicks).1| ==> Clicks(c, clicks).1[i] == OpenModal(c.src)
  {
    if |clicks| > 0 {
      EmbeddedOpensModals(c, clicks[1..]);
    }
  }

  /** Any other source is embedded by the first click, wherever it lands, and
      from then on every click off the title opens the modal. */
  lemma InlineSourceEmbedsOnce(v: Viz, clicks: seq<bool>)
    requires !IsLargeSource(v.src) && |clicks| > 0
    ensures var effects := Clicks(CreateContainer(v), clicks).1;
      && |effects| == 1 + OffTitle(clicks[1..])
      && effects[0] == EmbedIframe(v.src)
      && forall i :: 1 <= i < |effects| ==> effects[i] == OpenModal(v.src)
  {
    var c := CreateContainer(v);
    var first := Click(c, clicks[0]);
    EmbeddedOpensModals(first.0, clicks[1..]);
  }

  /** The `large-viz` class has no say in what clicks do. */
  lemma {:induction false} ClassDoesNotDecide(c: Container, flag: bool, clicks: seq<bool>)
    ensures Clicks(c.(largeClass := flag), clicks).1 == Clicks(c, clicks).1
    decreases |clicks|
  {
    if |clicks| > 0 {
      var d := c.(largeClass := flag);
      assert Click(d, clicks[0]).0 == Click(c, clicks[0]).0.(largeClass := flag);
      ClassDoesNotDecide(Click(c, clicks[0]).0, flag, clicks[1..]);
    }
  }

  /** A descriptor flagged large whose path lacks the marker is embedded
      inline all the same. */
  lemma FlagWithoutMarkerEmbeds()
    ensures !IsLargeSource("a.html")
    ensures Clicks(CreateContainer(Viz("a.html", true)), [false]).1 == [EmbedIframe("a.html")]
  {
  }
}

=== FILE: wrappers.dfy ===
/** The optional value shared by the loader's registry and the cache
    lookups. */
module Wrappers {
  datatype Option<T> = None | Some(value: T)
}
